=== FILE: README.md ===
# todo-sync in Dafny

A model of the import core of todo-sync. todo-sync copies to-dos from
Things 3 and tasks from Asana into Taskwarrior. Optionally, a local Ollama
model first decides which Things to-dos belong in a terminal task manager.

The model covers these parts:

- **Taskwarrior** (`taskwarrior.dfy`): looks a task up by its external id,
  then creates, updates or skips it. Also builds the normalised task
  dictionary the readers produce. The Taskwarrior database is a sequence
  of records, and an upsert is a pure function from one database to the
  next.
- **OllamaFilter** (`ollama_filter.dfy`): turns one model reply into a
  keep/drop verdict. This covers strip, lower-case, the text after the last
  `</think>`, and the "yes" prefix. It also models the `filter_tasks`
  partition. The HTTP call is an oracle parameter.
- **Config** (`config.dfy`): the four default sections. Each section is
  overridden shallowly by the user's table of the same name.
- **ThingsReader** and **AsanaReader** (`things_reader.dfy`,
  `asana_reader.dfy`): the area filter, the workspace resolution, the token
  check and the mapping of each record onto a task dictionary. What the
  libraries return is an input, and so is the date parser.
- **Cli** (`cli.dfy`): one sync step per source, then the `things`, `asana`
  and `all` commands. A sync step fetches, optionally classifies, upserts
  each task and counts the actions. The commands decide from the settings
  which steps run.
- **Helpers**: `Wrappers`, `Values`, `Seqs` and `Text` hold the Python
  built-ins these parts rely on: `str.strip`, `str.lower`, `in`,
  `split(sep)[-1]`, slicing and list comprehensions.

Three points where the code's behaviour is narrower than one might expect
of a sync tool; the model follows the code:

- **Tag comparison.** A sync would naturally treat tags as a set and
  ignore their order and embedded whitespace. `upsert_task` instead
  compares every non-None attribute with `!=`. So tags are compared as
  lists, without normalisation, and reordered tags count as a change
  (`Taskwarrior.TagOrderCounts`).
- **Which attributes are compared.** Every non-None attribute of the
  incoming dictionary except `annotations` is compared, the id attribute and
  `source` included, not only description, project, due, priority and tags.
- **No further sync features.** These files do not detect tasks that
  vanished from a source, link dependencies, or push completions back, so
  none of that is modelled.

## Model

| member | source | states |
|---|---|---|
| Taskwarrior.FindByExternalId | src/todo_sync/taskwarrior.py:54-66 | A pending task with the id wins over a waiting one, and the first such task is returned. Completed, deleted and recurring tasks are never found. The result is none exactly when no pending or waiting task holds the id |
| Taskwarrior.FindDeterminedByHits | src/todo_sync/taskwarrior.py:57-64 | The lookup depends only on which positions the two status filters answer |
| Taskwarrior.Upsert | src/todo_sync/taskwarrior.py:69-109 | Created exactly when the lookup fails. A created task is appended as pending, holds exactly the non-None attributes other than annotations, and carries the cleaned annotations. Otherwise only the found task changes: the differing non-None values are written and its status and annotations are kept. Updated exactly when some value differs; skipped leaves the store unchanged |
| Taskwarrior.Overwrite | src/todo_sync/taskwarrior.py:84-93 | After the update loop every non-None incoming value is in place. None values write nothing, and every other attribute keeps its key and value |
| Taskwarrior.UpsertIdempotent | src/todo_sync/taskwarrior.py:79-109 | Upserting the same dictionary twice never creates twice. The second call reports skipped on the same task and leaves the store as it was |
| Taskwarrior.FoundAfterCreate | src/todo_sync/taskwarrior.py:99-102 | After a creation, lookup by the id finds the new task |
| Taskwarrior.FoundAfterMatch | src/todo_sync/taskwarrior.py:84-97 | After an update or a skip, lookup by the id finds the same task again |
| Taskwarrior.UpsertKeepsUnique | src/todo_sync/taskwarrior.py:79-102 | Search before create keeps each external id on at most one open task. This holds for the source's own id attribute and for any id attribute the dictionary does not mention |
| Taskwarrior.AnnotationsNeverDiffed | src/todo_sync/taskwarrior.py:82-97 | Annotations are popped before the diff. Two dictionaries that differ only in annotations get the same result on a found task, and its annotations stay untouched |
| Taskwarrior.TagOrderCounts | src/todo_sync/taskwarrior.py:86-92 | The same two tags in the other order make a found task "updated": tags are compared as lists |
| Taskwarrior.CleanAnnotations | src/todo_sync/taskwarrior.py:105-107 | No notes give no annotations. Every attached annotation is non-empty, at most 1000 characters long, and does not start with whitespace. There are never more annotations than notes |
| Taskwarrior.CleanAnnotationsOne | src/todo_sync/taskwarrior.py:105-107 | One note is cleaned exactly as Taskwarrior.CleanedNote says: with Taskwarrior.CleanAnnotationsAppend, each note in turn is stripped and cut to 1000 characters, blank ones skipped, in order |
| Taskwarrior.CleanedNote | src/todo_sync/taskwarrior.py:106-107 | A note contributes nothing exactly when it is blank after stripping. Otherwise it contributes one annotation: the stripped note, cut to its first 1000 characters |
| Taskwarrior.CleanAnnotation | src/todo_sync/taskwarrior.py:107 | The annotation is the stripped note cut to min(length, 1000) characters, so it is non-empty and starts with a non-space |
| Taskwarrior.NonNull | src/todo_sync/taskwarrior.py:100 | A new task gets exactly the attributes whose value is not None, with those values |
| Taskwarrior.CleanAnnotationsAppend | src/todo_sync/taskwarrior.py:105-107 | Notes are cleaned one at a time and in order: cleaning distributes over concatenation |
| Taskwarrior.CleanAnnotationsKeepsCleanNotes | src/todo_sync/taskwarrior.py:105-107 | Notes that are already stripped, non-blank and within the limit are attached unchanged |
| Taskwarrior.BuildTags | src/todo_sync/taskwarrior.py:126-128 | The given tags come first, in order. The source tag is always present and is appended only when missing, so it is never duplicated |
| Taskwarrior.BuildTaskData | src/todo_sync/taskwarrior.py:130-135 | Description, the id under its own attribute, source and tags are always present |
| Taskwarrior.BuildTaskDataOptionalValues | src/todo_sync/taskwarrior.py:137-144 | Project is present iff it is non-empty. Due is present iff given. Priority is present iff it is H, M or L. Annotations are present iff the list is non-empty. Each present value is the argument it came from |
| Taskwarrior.BuildTaskDataShape | src/todo_sync/taskwarrior.py:130-146 | The dictionary holds only the eight attributes, and its annotations entry is a list |
| Taskwarrior.BuildTaskDataHasNoNone | src/todo_sync/taskwarrior.py:130-146 | No value is None, so an upsert of a built dictionary skips no attribute |
| Taskwarrior.BuiltDataMentionsOneId | src/todo_sync/taskwarrior.py:130-135 | A built dictionary names no other source's id attribute |
| Text.Strip | src/todo_sync/ollama_filter.py:66 | `strip()` leaves no whitespace at either end and never lengthens the text |
| Text.StripBlank | src/todo_sync/taskwarrior.py:106 | `strip()` is empty exactly when the text is nothing but whitespace, which is the blank-note test |
| Text.Lower | src/todo_sync/ollama_filter.py:66 | `lower()` keeps the length and maps each character on its own: ASCII capitals to small letters, everything else unchanged |
| Text.StripSlice | src/todo_sync/ollama_filter.py:66 | `strip()` is the slice between the leading whitespace run and the trailing whitespace run, with non-space characters at both ends |
| Text.AfterLast | src/todo_sync/ollama_filter.py:69 | The suffix after the last occurrence of the separator, holding no occurrence itself; the whole text when the separator does not occur |
| Text.SplitStart | src/todo_sync/ollama_filter.py:69 | Where `split(sep)[-1]` begins: the start, or just past an occurrence, and no occurrence begins there or later |
| Text.SplitStartReaches | src/todo_sync/ollama_filter.py:69 | For a separator that cannot overlap itself, `split(sep)[-1]` begins right after the last occurrence |
| Text.SplitLast | src/todo_sync/ollama_filter.py:69 | `split(sep)[-1]` by its greedy left-to-right scan: the result is a suffix of the text |
| Text.SplitLastIsAfterLast | src/todo_sync/ollama_filter.py:69 | For a separator that cannot overlap itself, `split(sep)[-1]` is the text after the last occurrence |
| Text.OverlapSplitsDifferently | src/todo_sync/ollama_filter.py:69 | For a self-overlapping separator the two differ: `"aaa".split("aa")[-1]` is `"a"`, while the text after the last occurrence is empty |
| Text.Truncate | src/todo_sync/taskwarrior.py:107 | `[:n]` is a prefix of at most n characters. It is the whole text when that is short enough, and exactly n characters otherwise |
| OllamaFilter.NotesSection | src/todo_sync/ollama_filter.py:44 | The notes line is empty exactly when there are no notes. Otherwise it is the label, the notes and a newline |
| OllamaFilter.NotesSectionRoundTrip | src/todo_sync/ollama_filter.py:44 | The notes can always be read back from the notes line |
| OllamaFilter.NotesSectionInjective | src/todo_sync/ollama_filter.py:44 | Different notes give different prompts |
| OllamaFilter.FinalAnswer | src/todo_sync/ollama_filter.py:66-69 | The answer looked at holds no `</think>` and has no whitespace at either end |
| OllamaFilter.Decide | src/todo_sync/ollama_filter.py:66-70 | The task is kept exactly when the reply, stripped and lower-cased, and cut to the stripped last piece after `</think>` when that occurs, starts with "yes" |
| OllamaFilter.ThinkCloseNoSelfOverlap | src/todo_sync/ollama_filter.py:68-69 | Two copies of `</think>` can never overlap |
| OllamaFilter.FinalAnswerSplits | src/todo_sync/ollama_filter.py:66-69 | The answer is the reply stripped and lower-cased, then, when it holds the tag, the stripped last piece of splitting at the tag |
| OllamaFilter.PlainAnswer | src/todo_sync/ollama_filter.py:66-69 | Without a thinking tag, the answer is the whole reply, stripped and lower-cased |
| OllamaFilter.ReasoningIgnored | src/todo_sync/ollama_filter.py:66-70 | Whatever comes before the last `</think>` does not change the verdict |
| OllamaFilter.DecideIgnoresCase | src/todo_sync/ollama_filter.py:66-70 | The verdict does not depend on letter case |
| OllamaFilter.DecideIgnoresPadding | src/todo_sync/ollama_filter.py:66-70 | The verdict does not depend on surrounding whitespace |
| OllamaFilter.ClassifyTask | src/todo_sync/ollama_filter.py:60-70 | An unreachable server is the RuntimeError failure. An undecodable body is the other failure. Otherwise the task is kept exactly when the answer starts with "yes" |
| OllamaFilter.TitleOf | src/todo_sync/ollama_filter.py:87 | The title is the task's description, or "" when it has none |
| OllamaFilter.NotesOf | src/todo_sync/ollama_filter.py:89-90 | The notes are the first annotation, or "" when the annotation list is missing or empty |
| OllamaFilter.Verdict | src/todo_sync/ollama_filter.py:86-92 | A task is kept exactly when the model, asked with its title and notes, answers a reply whose answer starts with "yes" |
| OllamaFilter.VerdictOfBuilt | src/todo_sync/ollama_filter.py:86-92 | For a built dictionary the model is asked with the reader's description and first note |
| OllamaFilter.FilterTasks | src/todo_sync/ollama_filter.py:73-97 | The call succeeds exactly when every task is classified without failure |
| OllamaFilter.FilterTasksFirstFailure | src/todo_sync/ollama_filter.py:86-95 | A failed call reports the failure of the first task that could not be classified; all tasks before it were classified |
| OllamaFilter.FilterTasksSelects | src/todo_sync/ollama_filter.py:83-97 | The two lists are exactly the kept tasks and exactly the dropped tasks, each selected in input order |
| OllamaFilter.FilterTasksPartition | src/todo_sync/ollama_filter.py:83-97 | Every task lands in exactly one list, as often as it occurs in the input |
| OllamaFilter.FilterTasksOrder | src/todo_sync/ollama_filter.py:83-97 | Both lists keep the input order. The first holds only kept tasks and the second only dropped ones |
| Config.Defaults | src/todo_sync/config.py:20-25 | The defaults have exactly the sections asana, things, sync and ollama |
| Config.Override | src/todo_sync/config.py:34 | `update`: the user's settings win, and every other default stays |
| Config.Merge | src/todo_sync/config.py:32-35 | Each default section is overridden by the user's table of the same name. The user's values win and the other defaults stay. Unknown sections are dropped |
| Config.LoadConfig | src/todo_sync/config.py:18-37 | Without a file the result is the defaults; with one it is the defaults merged with the file. In every case it has exactly the four sections |
| Config.MergeNothing | src/todo_sync/config.py:32-35 | A file with no settings in any known section changes nothing |
| Config.EmptyFileIsDefaults | src/todo_sync/config.py:26-37 | A file that is empty, or has only unknown sections, loads as the defaults |
| Config.MergeStable | src/todo_sync/config.py:32-35 | Merging again with the merged result changes nothing |
| Config.LoadConfigStable | src/todo_sync/config.py:18-37 | A file holding the loaded settings loads to the same settings |
| Config.UnknownSectionsIgnored | src/todo_sync/config.py:32-35 | A section that the defaults do not name has no effect |
| Config.LoadConfigWellTyped | src/todo_sync/config.py:32-35 | A file that gives the token, workspace, areas and source tags the default types keeps them that way after loading |
| ThingsReader.TitleFor | src/todo_sync/things_reader.py:30-31 | The uuid-to-title lookup answers the title of the last item with that uuid. It answers none exactly when no item has the uuid |
| ThingsReader.SelectByArea | src/todo_sync/things_reader.py:22-27 | An empty area filter keeps every to-do. Otherwise the filter keeps, in order, exactly the to-dos whose area has a listed title, each as many times as it occurs |
| ThingsReader.FetchThingsTasks | src/todo_sync/things_reader.py:10-72 | One record per to-do that passes the area filter, in order, keyed by the to-do's uuid, titled by it and coming from "things3" |
| ThingsReader.ProjectName | src/todo_sync/things_reader.py:36-41 | A to-do with a project gets that project's title, or none when the project uuid is unknown, and never its area. A to-do without a project gets its area's title |
| ThingsReader.ThingsRecordShape | src/todo_sync/things_reader.py:59-70 | Each record is keyed by its to-do's uuid, comes from "things3" and carries the configured source tag |
| ThingsReader.ThingsFields | src/todo_sync/things_reader.py:44-57 | Tags are the given ones (none when missing) plus the source tag. There is one annotation exactly when the to-do has notes. There is a due date exactly when the deadline parses. There is never a priority |
| AsanaReader.WorkspaceGid | src/todo_sync/asana_reader.py:16-32 | A configured workspace is used as it is. Otherwise the account must have exactly one workspace. No workspace and several workspaces are distinct errors, and the second names every workspace, in order |
| AsanaReader.TagNames | src/todo_sync/asana_reader.py:84-86 | The tag names are exactly the names of the tags that have one |
| AsanaReader.TagNamesAppend | src/todo_sync/asana_reader.py:86 | Names are collected tag by tag, in order: the names of two lists put together are the names of each, in turn |
| AsanaReader.TagNamesOne | src/todo_sync/asana_reader.py:86 | A single tag contributes its name when it has one and nothing otherwise |
| AsanaReader.FirstProjectName | src/todo_sync/asana_reader.py:89-94 | The result is the first non-empty project name. It is none exactly when no project has one |
| AsanaReader.FetchAsanaTasks | src/todo_sync/asana_reader.py:35-114 | A missing or placeholder token fails before the API is touched. With a usable token the reader succeeds exactly when the workspace resolves and the task listing answers; a workspace or listing error is passed on unchanged |
| AsanaReader.AsanaRecords | src/todo_sync/asana_reader.py:101-112 | One record per incomplete task, in order, keyed by its gid, titled by its name and coming from "asana" |
| AsanaReader.AsanaSkipsCompleted | src/todo_sync/asana_reader.py:70-73 | Completed tasks are never imported. Every incomplete task is, in order |
| AsanaReader.AsanaFields | src/todo_sync/asana_reader.py:83-112 | Each record is keyed by the gid and comes from "asana". Its tags are the present tag names plus the source tag. Its project is the first named project, and it never has a priority |
| AsanaReader.AsanaNotesAndDue | src/todo_sync/asana_reader.py:75-99 | There is one annotation exactly when the task has notes. There is a due date exactly when `due_on` is given and parses |
| Cli.BuiltImportable | src/todo_sync/cli.py:98-100 | Every built dictionary holds its id as text under its own attribute, so the sync loop can read it. It names no other id attribute |
| Cli.UpsertAll | src/todo_sync/cli.py:95-101 | One action per task. The store grows by exactly the number of creations |
| Cli.UpsertAllAppend | src/todo_sync/cli.py:98-101 | Tasks are upserted once each, in order: importing a list in two parts is importing the first part, then the second |
| Cli.UpsertAllKeepsUnique | src/todo_sync/cli.py:98-101 | Importing a list never puts one external id on two open tasks |
| Cli.Tally | src/todo_sync/cli.py:96-101 | Each counter is the number of its actions, and created + updated + skipped is the number of tasks upserted |
| Cli.Screen | src/todo_sync/cli.py:74-93 | Filtering is skipped when the classifier is off. On the RuntimeError the tasks stay as fetched and nothing is filtered out. Only a non-RuntimeError failure propagates. A successful pass keeps exactly the included tasks and counts the excluded ones. The kept tasks keep their order, and kept plus filtered out is the number fetched |
| Cli.SyncSource | src/todo_sync/cli.py:54-108 | A fetch failure ends the step with no upsert. A classifier crash changes nothing. A classifier failure other than an unreachable server ends the step as a crash, and only that does. A completed step has created + updated + skipped + filtered out equal to the number fetched, and the store grows by the number created |
| Cli.SyncFallsBackToAll | src/todo_sync/cli.py:74-93 | With the classifier off or unreachable, every fetched task is imported and none is counted as filtered out |
| Cli.SyncImportsIncluded | src/todo_sync/cli.py:84-101 | With a working classifier, exactly the included tasks are imported, and the filtered-out count is the number of excluded tasks |
| Cli.SyncKeepsUnique | src/todo_sync/cli.py:54-101 | A sync step keeps every external id on at most one open task |
| Cli.ThingsImportable | src/todo_sync/cli.py:98-100 | The Things reader's records can be upserted under the Things uuid, and they name no Asana gid |
| Cli.AsanaImportable | src/todo_sync/cli.py:98-100 | The Asana reader's records can be upserted under the Asana gid, and they name no Things uuid |
| Cli.FetchThings | src/todo_sync/things_reader.py:10-72 | The Things fetch fails exactly when the library raises; otherwise it returns the Things reader's records |
| Cli.ThingsCommand | src/todo_sync/cli.py:111-122 | `things` does nothing exactly when Things is disabled. Otherwise it runs the sync step on the Things records under the Things uuid, with the classifier |
| Cli.AsanaCommand | src/todo_sync/cli.py:125-131 | `asana` runs the sync step on the Asana records under the Asana gid, without the classifier. A missing token fails the fetch and leaves the store unchanged |
| Cli.AsanaIgnoresClassifier | src/todo_sync/cli.py:131 | The Asana step never asks the model: its result does not depend on it |
| Cli.ThingsWithoutOllama | src/todo_sync/cli.py:75-77 | With `ollama.enabled` off, the Things step does not depend on the model |
| Cli.SyncAll | src/todo_sync/cli.py:134-154 | `all` reports the Things step's outcome, which is "off" exactly when Things is disabled. It syncs Asana only when the token is set and is not the placeholder, on the store the Things step left, and ends with the store of the last step that ran. A crash in the Things step ends the command before Asana |
| Cli.DefaultsSyncOnlyThings | src/todo_sync/cli.py:134-154 | With the default settings, `all` syncs Things and skips Asana |
| Cli.SyncAllKeepsUnique | src/todo_sync/cli.py:134-154 | `all` never puts an id of either source on two open tasks |

## Left out

- Taskwarrior persistence through tasklib: `save`, `add_annotation`, value conversion and the database's own ordering. The store is a sequence in filter order.
- `ensure_udas`: it runs `task` as a subprocess to register three attributes (the two ids and `source`).
- `get_tw`: it only opens the Taskwarrior database.
- The HTTP request, the JSON encoding, the prompt text, the model name and the base URL. The oracle receives the title and the notes line, and answers with a reply, an unreachable server or an undecodable body.
- The Things 3 library, the Asana SDK, workspace pagination and `datetime.strptime`. Their answers are parameters.
- TOML parsing and file I/O: the parsed file is an input. `create_default_config`, `setup`, `config_exists` and the click console output are not modelled.
- OllamaFilter.FinalAnswer: lower-cases only ASCII letters. Python's `str.lower` also maps other characters, some onto ASCII: the Kelvin sign U+212A becomes `k`. So `"no</thin\u212A> yes"` holds a `</think>` for the source, which keeps the task. The model sees no tag and drops it.
- OllamaFilter.Decide: inherits the ASCII-only lower-casing of OllamaFilter.FinalAnswer.
- Text.Lower: lower-cases ASCII letters only; the other case mappings of Python's `str.lower` are not modelled (see OllamaFilter.FinalAnswer for a reply this changes).
- Exceptions raised by tasklib during an upsert, and a KeyError when printing an excluded task without a description, are not modelled.
- The Asana SDK's optional `name` attribute is modelled as an optional name. A project name that is not text is outside the model.
- AsanaReader.TagNames: a tag whose `name` attribute exists but is None passes the `hasattr` test, so the source puts None into the tags. `Ref` cannot express a present None name.
- The Crashed outcome stands for any exception other than RuntimeError that escapes the classifier. The command then aborts.
- ThingsReader.FetchThingsTasks: requires the source tag to be text and the area filter to be a list. The source would also accept other types, for example a substring test on a text filter.
- AsanaReader.FetchAsanaTasks: requires the token, the workspace and the source tag to be text, for the same reason.
- Cli.SyncSource: requires each fetched dictionary to hold its id as text, annotations as a list, and a description, when present, as text. A missing id raises a KeyError in the source. The annotations entry only matters when a task is created: on an update it is removed and never read. On a create the source iterates it. None or a number then raises a TypeError, and a list item that is not text raises when stripped, unless it is falsy (None, 0, an empty list), which is skipped. A text entry is iterated character by character, attaching each non-blank character. The model leaves these cases out. A non-text description would only reach the prompt and needs no such requirement there. Both readers are proved to meet all three (Cli.ThingsImportable, Cli.AsanaImportable).
- Cli.UpsertAll: requires the same of every task, for the same reason.
- Cli.ThingsCommand, Cli.AsanaCommand, Cli.SyncAll: require the settings the readers use to have their default types, as ThingsReader.FetchThingsTasks and AsanaReader.FetchAsanaTasks do.
- Config.LoadConfig: a known section must be a table in the model. The source hands any value to `dict.update`, with these effects:
  - an empty string or an empty array changes nothing;
  - an array of pairs such as `[["workspace", "x"]]` sets those keys;
  - a number, a boolean, a date, a non-empty string, or an array holding something other than pairs makes it raise.
  `Settings` maps every section to a table, so none of these is modelled.
- Taskwarrior.Upsert: assumes the store reports an attribute present exactly when it was written, and returns it exactly as written. The tasklib conversions of stored values (for example tags read back as another collection type) are not part of this model.
- Taskwarrior.UpsertIdempotent: rests on the same assumption about the store as Taskwarrior.Upsert.
- Taskwarrior.TagOrderCounts: rests on the same assumption; it describes the comparison the code writes, not how tasklib returns tags.
- Taskwarrior.Upsert: requires the annotations entry, when present, to be a list. `build_task_data` always produces one.

=== FILE: asana_reader.dfy ===
/**
 * The Asana reader: the token check, the workspace resolution and the
 * mapping of each incomplete task onto a task dictionary. What the Asana
 * API returns (the workspace list, the tasks of the user's task list) is
 * an input, and so is the date parser.
 */
module AsanaReader {
  import opened Wrappers
  import opened Values
  import opened Seqs
  import opened Config
  import opened Taskwarrior

  /** A tag or project reference: `None` when the object has no `name` attribute. */
  datatype Ref = Ref(name: Option<string>)

  /** One task of the user's task list, with the fields the reader requests. */
  datatype AsanaTask = AsanaTask(
    gid: string,
    name: string,
    completed: bool,
    dueOn: Option<string>,
    tags: seq<Ref>,
    projects: seq<Ref>,
    notes: Option<string>)

  datatype Workspace = Workspace(gid: string, name: string)

  /** Why fetching fails: the checks of the reader, or an error the API raised. */
  datatype AsanaError =
    | TokenMissing
    | NoWorkspace
    | ManyWorkspaces(names: seq<string>)
    | ApiFailure(message: string)

  /** `datetime.strptime(text, "%Y-%m-%d")`, `None` where it raises. */
  type DateParser = string -> Option<Date>

  const AsanaSource := "asana"

  /**
   * `_get_workspace_gid`: a configured workspace is used as it is; otherwise
   * the account must have exactly one workspace. The listing is only
   * consulted when no workspace is configured.
   */
  function WorkspaceGid(configured: string, listing: Result<seq<Workspace>, AsanaError>): (r: Result<string, AsanaError>)
    ensures configured != "" ==> r == Ok(configured)
    ensures configured == "" && listing.Err? ==> r == Err(listing.error)
    ensures configured == "" && listing.Ok? ==> (r.Ok? <==> |listing.value| == 1)
    ensures configured == "" && listing.Ok? && |listing.value| == 1 ==> r == Ok(listing.value[0].gid)
    ensures configured == "" && listing.Ok? && listing.value == [] ==> r == Err(NoWorkspace)
    ensures configured == "" && listing.Ok? && |listing.value| > 1 ==>
              && r.Err? && r.error.ManyWorkspaces? && |r.error.names| == |listing.value|
              && forall i :: 0 <= i < |listing.value| ==> r.error.names[i] == listing.value[i].name
  {
    if configured != "" then Ok(configured)
    else
      match listing
      case Err(e) => Err(e)
      case Ok(workspaces) =>
        if workspaces == [] then Err(NoWorkspace)
        else if |workspaces| > 1 then Err(ManyWorkspaces(Names(workspaces)))
        else Ok(workspaces[0].gid)
  }

  /** The workspace names, in order, for the error message. */
  function Names(workspaces: seq<Workspace>): (r: seq<string>)
    ensures |r| == |workspaces|
    ensures forall i :: 0 <= i < |r| ==> r[i] == workspaces[i].name
  {
    seq(|workspaces|, i requires 0 <= i < |workspaces| => workspaces[i].name)
  }

  /** The token is usable: not empty and not the setup's placeholder. */
  predicate TokenConfigured(token: Value) {
    Truthy(token) && token != Str(PlaceholderToken)
  }

  /** `[tag.name for tag in t.tags if hasattr(tag, "name")]`. */
  function TagNames(tags: seq<Ref>): (r: seq<string>)
    ensures |r| <= |tags|
    ensures forall n :: n in r <==> Ref(Some(n)) in tags
    decreases |tags|
  {
    if tags == [] then []
    else
      var rest := TagNames(tags[1..]);
      assert forall x :: x in tags <==> x == tags[0] || x in tags[1..];
      match tags[0].name
      case Some(n) => [n] + rest
      case None => rest
  }

  /** The names of a list of tags put one after the other are the names of each part, in order. */
  lemma {:induction false} TagNamesAppend(a: seq<Ref>, b: seq<Ref>)
    ensures TagNames(a + b) == TagNames(a) + TagNames(b)
    decreases |a|
  {
    if a == [] {
      assert a + b == b;
    } else {
      TailOfConcat(a, b);
      TagNamesAppend(a[1..], b);
      ConcatAssoc(TagNames([a[0]]), TagNames(a[1..]), TagNames(b));
      TagNamesOne(a[0]);
    }
  }

  /** One tag contributes its name when it has one, and nothing otherwise. */
  lemma TagNamesOne(tag: Ref)
    ensures TagNames([tag]) == if tag.name.Some? then [tag.name.value] else []
  {
    assert [tag][1..] == [];
  }

  /** The name of the first project that has a non-empty one. */
  function FirstProjectName(projects: seq<Ref>): (r: Option<string>)
    ensures r.Some? ==> r.value != "" && exists i :: 0 <= i < |projects| && projects[i] == Ref(Some(r.value)) && Unnamed(projects, i)
    ensures r.None? <==> Unnamed(projects, |projects|)
    decreases |projects|
  {
    if projects == [] then None
    else if projects[0].name.Some? && projects[0].name.value != "" then
      assert Unnamed(projects, 0);
      Some(projects[0].name.value)
    else
      var r := FirstProjectName(projects[1..]);
      assert forall i :: 0 < i <= |projects| ==> (Unnamed(projects[1..], i - 1) <==> Unnamed(projects, i)) by {
        forall i | 0 < i <= |projects| ensures Unnamed(projects[1..], i - 1) <==> Unnamed(projects, i) {
          assert forall j :: 0 < j < i ==> projects[1..][j - 1] == projects[j];
        }
      }
      assert r.Some? ==> exists i :: 0 <= i < |projects[1..]| && projects[1..][i] == Ref(Some(r.value)) && Unnamed(projects[1..], i);
      r
  }

  /** None of the first `n` references carries a non-empty name. */
  predicate Unnamed(refs: seq<Ref>, n: int) {
    forall j :: 0 <= j < n && j < |refs| ==> refs[j].name.None? || refs[j].name.value == ""
  }

  /** The notes as the annotation list: one annotation when there are notes. */
  function NotesAnnotations(notes: Option<string>): (r: seq<string>)
    ensures |r| <= 1
    ensures r != [] <==> notes.Some? && notes.value != ""
    ensures r != [] ==> r[0] == notes.value
  {
    if notes.Some? && notes.value != "" then [notes.value] else []
  }

  /** The due date, or none when it is missing or does not parse. */
  function DueDate(task: AsanaTask, parse: DateParser): Option<Date> {
    if task.dueOn.Some? && task.dueOn.value != "" then parse(task.dueOn.value) else None
  }

  /** The arguments `build_task_data` receives for one task. */
  function AsanaInput(task: AsanaTask, parse: DateParser, sourceTag: string): (r: TaskInput)
    ensures r.description == task.name && r.field == AsanaGid && r.externalId == task.gid
    ensures r.source == AsanaSource && r.sourceTag == sourceTag && r.priority.None?
  {
    TaskInput(
      task.name, AsanaGid, task.gid, AsanaSource, sourceTag,
      FirstProjectName(task.projects),
      DueDate(task, parse),
      TagNames(task.tags),
      None,
      NotesAnnotations(task.notes))
  }

  /** Tasks still to do. */
  function Open(): AsanaTask -> bool {
    (t: AsanaTask) => !t.completed
  }

  function AsanaTag(config: Settings): string
    requires WellTyped(config)
  {
    Setting(config, SyncSection, "asana_tag", Str("asana")).s
  }

  /**
   * `fetch_asana_tasks`: refuses a missing or placeholder token before
   * touching the API, resolves the workspace, then maps every incomplete
   * task of the user's task list, in order. `tasksOf` answers for the
   * workspace it is given (the user task list lookup and its task listing).
   */
  function FetchAsanaTasks(
    config: Settings,
    listing: Result<seq<Workspace>, AsanaError>,
    tasksOf: string -> Result<seq<AsanaTask>, AsanaError>,
    parse: DateParser): (r: Result<seq<Fields>, AsanaError>)
    requires WellTyped(config)
    ensures !TokenConfigured(Setting(config, AsanaSection, "personal_access_token", Str(""))) ==> r == Err(TokenMissing)
    ensures TokenConfigured(Setting(config, AsanaSection, "personal_access_token", Str(""))) ==>
              var gid := WorkspaceGid(Setting(config, AsanaSection, "workspace", Str("")).s, listing);
              && (r.Ok? <==> gid.Ok? && tasksOf(gid.value).Ok?)
              && (gid.Err? ==> r == Err(gid.error))
              && (gid.Ok? && tasksOf(gid.value).Err? ==> r == Err(tasksOf(gid.value).error))
    ensures r.Ok? ==> var gid := WorkspaceGid(Setting(config, AsanaSection, "workspace", Str("")).s, listing);
            && gid.Ok? && tasksOf(gid.value).Ok?
            && r.value == AsanaRecords(Filter(tasksOf(gid.value).value, Open()), parse, AsanaTag(config))
  {
    var token := Setting(config, AsanaSection, "personal_access_token", Str(""));
    if !TokenConfigured(token) then Err(TokenMissing)
    else
      match WorkspaceGid(Setting(config, AsanaSection, "workspace", Str("")).s, listing)
      case Err(e) => Err(e)
      case Ok(gid) =>
        match tasksOf(gid)
        case Err(e) => Err(e)
        case Ok(raw) =>
          Ok(AsanaRecords(Filter(raw, Open()), parse, AsanaTag(config)))
  }

  /**
   * One task dictionary per task, in order: each is keyed by its task's gid,
   * carries its name as the description and comes from "asana".
   */
  function AsanaRecords(open: seq<AsanaTask>, parse: DateParser, sourceTag: string): (r: seq<Fields>)
    ensures |r| == |open|
    ensures forall i :: 0 <= i < |open| ==> r[i] == BuildTaskData(AsanaInput(open[i], parse, sourceTag))
    ensures forall i :: 0 <= i < |open| ==>
              && KeyedBy(r[i], AsanaGid, open[i].gid)
              && DescriptionKey in r[i] && r[i][DescriptionKey] == Str(open[i].name)
              && SourceKey in r[i] && r[i][SourceKey] == Str(AsanaSource)
  {
    seq(|open|, i requires 0 <= i < |open| => BuildTaskData(AsanaInput(open[i], parse, sourceTag)))
  }

  /** Completed tasks are never imported, and the incomplete ones keep their order. */
  lemma AsanaSkipsCompleted(raw: seq<AsanaTask>)
    ensures IsSubseq(Filter(raw, Open()), raw)
    ensures forall t :: t in Filter(raw, Open()) ==> !t.completed
    ensures forall t :: t in raw && !t.completed ==> t in Filter(raw, Open())
  {
    forall t | t in raw && !t.completed ensures t in Filter(raw, Open()) {
      assert Open()(t);
      assert Count(Filter(raw, Open()), t) > 0;
    }
  }

  /**
   * The mapped fields of one task: tags are the names present, the project
   * is the first non-empty project name, one annotation exactly when it has
   * notes, and a due date only when `due_on` parses.
   */
  lemma AsanaFields(task: AsanaTask, parse: DateParser, sourceTag: string)
    ensures var r := BuildTaskData(AsanaInput(task, parse, sourceTag));
            && KeyedBy(r, AsanaGid, task.gid)
            && r[SourceKey] == Str(AsanaSource)
            && r[TagsKey] == Strs(BuildTags(TagNames(task.tags), sourceTag))
            && (FirstProjectName(task.projects).None? ==> ProjectKey !in r)
            && (FirstProjectName(task.projects).Some? ==> ProjectKey in r && r[ProjectKey] == Str(FirstProjectName(task.projects).value))
            && PriorityKey !in r
            && AnnotationsWellFormed(r)
  {
    BuildTaskDataOptionalValues(AsanaInput(task, parse, sourceTag));
    BuildTaskDataShape(AsanaInput(task, parse, sourceTag));
  }

  /**
   * One annotation exactly when the task has notes, and a due date exactly
   * when `due_on` is given and parses.
   */
  lemma AsanaNotesAndDue(task: AsanaTask, parse: DateParser, sourceTag: string)
    ensures var r := BuildTaskData(AsanaInput(task, parse, sourceTag));
            && (task.notes.Some? && task.notes.value != "" ==> AnnotationsKey in r && r[AnnotationsKey] == Strs([task.notes.value]))
            && (task.notes.None? || task.notes.value == "" ==> AnnotationsKey !in r)
            && (DueDate(task, parse).Some? ==> DueKey in r && r[DueKey] == Day(DueDate(task, parse).value))
            && (DueDate(task, parse).None? ==> DueKey !in r)
            && (task.dueOn.None? || task.dueOn.value == "" ==> DueKey !in r)
  {
    BuildTaskDataOptionalValues(AsanaInput(task, parse, sourceTag));
  }
}

=== FILE: cli.dfy ===
/**
 * The sync commands: one sync step per source (fetch, optionally classify,
 * upsert each task, count the actions) and the `things`, `asana` and `all`
 * commands that decide from the settings which steps run. Console output
 * is not modelled; each step reports its outcome instead.
 */
module Cli {
  import opened Wrappers
  import opened Values
  import opened Seqs
  import opened Config
  import opened Taskwarrior
  import opened OllamaFilter
  import ThingsReader
  import AsanaReader

  // ---------------------------------------------------------------------------
  // Upserting the fetched tasks

  /**
   * A dictionary the sync loop can take: it holds its id as text (the loop
   * reads `task_data[field]`) and the classifier can read it.
   */
  predicate Importable(task: Fields, field: IdField) {
    field.Key() in task && task[field.Key()].Str? && Classifiable(task)
  }

  predicate AllImportable(tasks: seq<Fields>, field: IdField) {
    forall t :: t in tasks ==> Importable(t, field)
  }

  /** Every dictionary `build_task_data` returns is importable under its own id field, and names no other. */
  lemma BuiltImportable(t: TaskInput)
    ensures Importable(BuildTaskData(t), t.field)
    ensures forall other: IdField :: other != t.field ==> other.Key() !in BuildTaskData(t)
  {
    BuildTaskDataShape(t);
    forall other: IdField | other != t.field ensures other.Key() !in BuildTaskData(t) {
      BuiltDataMentionsOneId(t, other);
    }
  }

  /** The actions taken, in task order, and the store after the last one. */
  datatype Imported = Imported(actions: seq<Action>, store: Store)

  /** The loop of `_sync_source`: each task upserted once, in order, under its own id. */
  function UpsertAll(store: Store, field: IdField, tasks: seq<Fields>): (r: Imported)
    requires AllImportable(tasks, field)
    ensures |r.actions| == |tasks|
    ensures |r.store| == |store| + Count(r.actions, Created)
    decreases |tasks|
  {
    if tasks == [] then Imported([], store)
    else
      var task := tasks[0];
      assert task in tasks;
      var u := Upsert(store, field, task[field.Key()].s, task);
      var rest := UpsertAll(u.store, field, tasks[1..]);
      assert multiset([u.action] + rest.actions) == multiset{u.action} + multiset(rest.actions);
      Imported([u.action] + rest.actions, rest.store)
  }

  /** Importing a list in two parts is importing the first part, then the second. */
  lemma {:induction false} UpsertAllAppend(store: Store, field: IdField, xs: seq<Fields>, ys: seq<Fields>)
    requires AllImportable(xs, field) && AllImportable(ys, field)
    ensures AllImportable(xs + ys, field)
    ensures var a := UpsertAll(store, field, xs);
            var b := UpsertAll(a.store, field, ys);
            UpsertAll(store, field, xs + ys) == Imported(a.actions + b.actions, b.store)
    decreases |xs|
  {
    ImportableAppend(xs, ys, field);
    if xs == [] {
      assert xs + ys == ys;
    } else {
      var task := xs[0];
      assert task in xs;
      var u := Upsert(store, field, task[field.Key()].s, task);
      UpsertAllAppend(u.store, field, xs[1..], ys);
      TailOfConcat(xs, ys);
      UpsertAllFirst(store, field, xs);
      UpsertAllFirst(store, field, xs + ys);
      var a' := UpsertAll(u.store, field, xs[1..]);
      var b := UpsertAll(a'.store, field, ys);
      ConcatAssoc([u.action], a'.actions, b.actions);
    }
  }

  /** Two importable lists make an importable list. */
  lemma ImportableAppend(xs: seq<Fields>, ys: seq<Fields>, field: IdField)
    requires AllImportable(xs, field) && AllImportable(ys, field)
    ensures AllImportable(xs + ys, field)
  {
  }

  /** One turn of the loop: the first task, then the rest on the store it leaves. */
  lemma UpsertAllFirst(store: Store, field: IdField, tasks: seq<Fields>)
    requires AllImportable(tasks, field) && tasks != []
    ensures tasks[0] in tasks && AllImportable(tasks[1..], field)
    ensures var u := Upsert(store, field, tasks[0][field.Key()].s, tasks[0]);
            var rest := UpsertAll(u.store, field, tasks[1..]);
            UpsertAll(store, field, tasks) == Imported([u.action] + rest.actions, rest.store)
  {
  }

  /**
   * No duplicate creation: importing keeps each id on at most one open task,
   * for the source's own id field and for any id field the tasks do not name.
   */
  lemma {:induction false} UpsertAllKeepsUnique(store: Store, field: IdField, tasks: seq<Fields>, other: IdField)
    requires AllImportable(tasks, field)
    requires other == field || forall t :: t in tasks ==> other.Key() !in t
    requires Unique(store, other)
    ensures Unique(UpsertAll(store, field, tasks).store, other)
    decreases |tasks|
  {
    if tasks != [] {
      var task := tasks[0];
      assert task in tasks;
      UpsertKeepsUnique(store, field, task[field.Key()].s, task, other);
      var u := Upsert(store, field, task[field.Key()].s, task);
      UpsertAllKeepsUnique(u.store, field, tasks[1..], other);
    }
  }

  /** The three counters the step prints. */
  datatype Counts = Counts(created: nat, updated: nat, skipped: nat)

  /** `counts[action] += 1` over all actions. */
  function Tally(actions: seq<Action>): (c: Counts)
    ensures c.created == Count(actions, Created)
    ensures c.updated == Count(actions, Updated)
    ensures c.skipped == Count(actions, Skipped)
    ensures c.created + c.updated + c.skipped == |actions|
    decreases |actions|
  {
    if actions == [] then Counts(0, 0, 0)
    else
      var c := Tally(actions[1..]);
      assert actions == [actions[0]] + actions[1..];
      assert multiset(actions) == multiset{actions[0]} + multiset(actions[1..]);
      match actions[0]
      case Created => c.(created := c.created + 1)
      case Updated => c.(updated := c.updated + 1)
      case Skipped => c.(skipped := c.skipped + 1)
  }

  // ---------------------------------------------------------------------------
  // One sync step

  /** The tasks left to import and how many the classifier filtered out. */
  datatype Screened = Screened(kept: seq<Fields>, filteredOut: nat)

  /** The `ollama.enabled` setting (on when absent). */
  predicate OllamaEnabled(config: Settings) {
    Truthy(Setting(config, OllamaSection, "enabled", Flag(true)))
  }

  /**
   * The optional classifier pass of `_sync_source`. Without a classifier,
   * or with the classifier switched off, everything is kept. An unreachable
   * model keeps everything too; any other classifier error propagates.
   */
  function Screen(tasks: seq<Fields>, filter: Option<Classifier>, enabled: bool): (r: Result<Screened, Failure>)
    ensures filter.None? || !enabled ==> r == Ok(Screened(tasks, 0))
    ensures filter.Some? && enabled ==> (r.Err? <==> FilterTasks(filter.value, tasks) == Err(BadReply))
    ensures filter.Some? && enabled && FilterTasks(filter.value, tasks) == Err(CannotReach) ==> r == Ok(Screened(tasks, 0))
    ensures r.Ok? ==> IsSubseq(r.value.kept, tasks) && |r.value.kept| + r.value.filteredOut == |tasks|
    ensures filter.Some? && enabled && FilterTasks(filter.value, tasks).Ok? ==>
              var p := FilterTasks(filter.value, tasks).value;
              r == Ok(Screened(p.included, |p.excluded|))
  {
    if filter.None? || !enabled then
      SubseqRefl(tasks);
      Ok(Screened(tasks, 0))
    else
      match FilterTasks(filter.value, tasks)
      case Ok(p) =>
        FilterTasksPartition(filter.value, tasks);
        FilterTasksOrder(filter.value, tasks);
        assert |multiset(p.included) + multiset(p.excluded)| == |multiset(tasks)|;
        Ok(Screened(p.included, |p.excluded|))
      case Err(CannotReach) =>
        SubseqRefl(tasks);
        Ok(Screened(tasks, 0))
      case Err(BadReply) => Err(BadReply)
  }

  /** How a source's step ended. */
  datatype Outcome =
    | SourceOff                                    // disabled or not configured
    | NotReached                                   // an earlier step aborted the command
    | FetchFailed                                  // the reader raised; nothing imported
    | Crashed                                      // the classifier raised something other than RuntimeError
    | Synced(counts: Counts, filteredOut: nat)

  datatype Step = Step(outcome: Outcome, store: Store)

  /**
   * `_sync_source`: a failed fetch ends the step before any upsert; then the
   * optional classifier pass; then every remaining task is upserted and the
   * actions are counted.
   */
  function SyncSource<E>(fetched: Result<seq<Fields>, E>, field: IdField, config: Settings, filter: Option<Classifier>, store: Store): (r: Step)
    requires fetched.Ok? ==> AllImportable(fetched.value, field)
    ensures fetched.Err? ==> r == Step(FetchFailed, store)
    ensures r.outcome == Crashed ==> r.store == store
    ensures fetched.Ok? ==> (r.outcome == Crashed <==> Screen(fetched.value, filter, OllamaEnabled(config)).Err?)
    ensures r.outcome.Synced? ==> fetched.Ok?
    ensures r.outcome.Synced? ==> var c := r.outcome.counts;
            && c.created + c.updated + c.skipped + r.outcome.filteredOut == |fetched.value|
            && |r.store| == |store| + c.created
    ensures r.outcome.Synced? || r.outcome == FetchFailed || r.outcome == Crashed
  {
    match fetched
    case Err(_) => Step(FetchFailed, store)
    case Ok(tasks) =>
      match Screen(tasks, filter, OllamaEnabled(config))
      case Err(_) => Step(Crashed, store)
      case Ok(s) =>
        SubseqMembers(s.kept, tasks);
        var imp := UpsertAll(store, field, s.kept);
        Step(Synced(Tally(imp.actions), s.filteredOut), imp.store)
  }

  /** The step when every fetched task is imported: no classifier, classifier off, or model unreachable. */
  function ImportAll(tasks: seq<Fields>, field: IdField, store: Store): Step
    requires AllImportable(tasks, field)
  {
    var imp := UpsertAll(store, field, tasks);
    Step(Synced(Tally(imp.actions), 0), imp.store)
  }

  /**
   * Fail-open: without a classifier, with the classifier switched off, or
   * when the model cannot be reached, the step imports every fetched task.
   */
  lemma SyncFallsBackToAll<E>(tasks: seq<Fields>, field: IdField, config: Settings, filter: Option<Classifier>, store: Store)
    requires AllImportable(tasks, field)
    requires filter.None? || !OllamaEnabled(config) || FilterTasks(filter.value, tasks) == Err(CannotReach)
    ensures SyncSource<E>(Ok(tasks), field, config, filter, store) == ImportAll(tasks, field, store)
  {
  }

  /** With a working classifier, exactly the included tasks are imported and the excluded ones counted. */
  lemma SyncImportsIncluded<E>(tasks: seq<Fields>, field: IdField, config: Settings, classify: Classifier, store: Store)
    requires AllImportable(tasks, field)
    requires OllamaEnabled(config) && FilterTasks(classify, tasks).Ok?
    ensures var p := FilterTasks(classify, tasks).value;
            && AllImportable(p.included, field)
            && var imp := UpsertAll(store, field, p.included);
               SyncSource<E>(Ok(tasks), field, config, Some(classify), store) == Step(Synced(Tally(imp.actions), |p.excluded|), imp.store)
  {
    var p := FilterTasks(classify, tasks).value;
    FilterTasksOrder(classify, tasks);
    SubseqMembers(p.included, tasks);
  }

  /** A step keeps every id on at most one open task. */
  lemma SyncKeepsUnique<E>(fetched: Result<seq<Fields>, E>, field: IdField, config: Settings, filter: Option<Classifier>, store: Store, other: IdField)
    requires fetched.Ok? ==> AllImportable(fetched.value, field)
    requires fetched.Ok? && other != field ==> forall t :: t in fetched.value ==> other.Key() !in t
    requires Unique(store, other)
    ensures Unique(SyncSource(fetched, field, config, filter, store).store, other)
  {
    if fetched.Ok? {
      var tasks := fetched.value;
      match Screen(tasks, filter, OllamaEnabled(config))
      case Err(_) =>
      case Ok(s) =>
        SubseqMembers(s.kept, tasks);
        UpsertAllKeepsUnique(store, field, s.kept, other);
    }
  }

  // ---------------------------------------------------------------------------
  // The commands

  /** What the `things` library returns: the incomplete to-dos, the areas and the projects. */
  datatype ThingsLibrary = ThingsLibrary(todos: seq<ThingsReader.Todo>, areas: seq<ThingsReader.Titled>, projects: seq<ThingsReader.Titled>)

  /** `fetch_things_tasks` over what the library returned, or the error it raised. */
  function FetchThings<E>(config: Settings, library: Result<ThingsLibrary, E>, parse: ThingsReader.DateParser): (r: Result<seq<Fields>, E>)
    requires WellTyped(config)
    ensures r.Err? <==> library.Err?
    ensures r.Ok? ==> r.value == ThingsReader.FetchThingsTasks(config, library.value.todos, library.value.areas, library.value.projects, parse)
  {
    match library
    case Err(e) => Err(e)
    case Ok(lib) => Ok(ThingsReader.FetchThingsTasks(config, lib.todos, lib.areas, lib.projects, parse))
  }

  /** What the Things reader returns can be imported under the Things uuid, and names no Asana gid. */
  lemma ThingsImportable<E>(config: Settings, library: Result<ThingsLibrary, E>, parse: ThingsReader.DateParser)
    requires WellTyped(config)
    ensures var r := FetchThings(config, library, parse);
            r.Ok? ==> AllImportable(r.value, Things3Uuid) && forall t :: t in r.value ==> AsanaGid.Key() !in t
  {
    if library.Ok? {
      var lib := library.value;
      var tasks := ThingsReader.FetchThingsTasks(config, lib.todos, lib.areas, lib.projects, parse);
      var selected := ThingsReader.SelectByArea(lib.todos, lib.areas, ThingsReader.AreaFilter(config));
      forall i | 0 <= i < |tasks| ensures Importable(tasks[i], Things3Uuid) && AsanaGid.Key() !in tasks[i] {
        BuiltImportable(ThingsReader.ThingsInput(selected[i], lib.areas, lib.projects, parse, ThingsReader.ThingsTag(config)));
      }
    }
  }

  /** What the Asana reader returns can be imported under the Asana gid, and names no Things uuid. */
  lemma AsanaImportable(
    config: Settings,
    listing: Result<seq<AsanaReader.Workspace>, AsanaReader.AsanaError>,
    tasksOf: string -> Result<seq<AsanaReader.AsanaTask>, AsanaReader.AsanaError>,
    parse: AsanaReader.DateParser)
    requires WellTyped(config)
    ensures var r := AsanaReader.FetchAsanaTasks(config, listing, tasksOf, parse);
            r.Ok? ==> AllImportable(r.value, AsanaGid) && forall t :: t in r.value ==> Things3Uuid.Key() !in t
  {
    var r := AsanaReader.FetchAsanaTasks(config, listing, tasksOf, parse);
    if r.Ok? {
      var gid := AsanaReader.WorkspaceGid(Setting(config, AsanaSection, "workspace", Str("")).s, listing);
      var open := Filter(tasksOf(gid.value).value, AsanaReader.Open());
      forall i | 0 <= i < |r.value| ensures Importable(r.value[i], AsanaGid) && Things3Uuid.Key() !in r.value[i] {
        BuiltImportable(AsanaReader.AsanaInput(open[i], parse, AsanaReader.AsanaTag(config)));
      }
    }
  }

  /** The `things.enabled` setting (on when absent). */
  predicate ThingsEnabled(config: Settings) {
    Truthy(Setting(config, ThingsSection, "enabled", Flag(true)))
  }

  /** The Asana token is set and is not the placeholder. */
  predicate AsanaConfigured(config: Settings) {
    AsanaReader.TokenConfigured(Setting(config, AsanaSection, "personal_access_token", Str("")))
  }

  /** Everything the outside world answers during one command. */
  datatype World<E> = World(
    library: Result<ThingsLibrary, E>,
    thingsDates: ThingsReader.DateParser,
    ask: Oracle,
    listing: Result<seq<AsanaReader.Workspace>, AsanaReader.AsanaError>,
    tasksOf: string -> Result<seq<AsanaReader.AsanaTask>, AsanaReader.AsanaError>,
    asanaDates: AsanaReader.DateParser)

  /** `todo-sync things`: the Things step, with the classifier, unless Things is disabled. */
  function ThingsCommand<E>(config: Settings, world: World<E>, store: Store): (r: Step)
    requires WellTyped(config)
    ensures !ThingsEnabled(config) <==> r.outcome == SourceOff
    ensures !ThingsEnabled(config) ==> r.store == store
    ensures ThingsEnabled(config) ==>
              var fetched := FetchThings(config, world.library, world.thingsDates);
              && (fetched.Ok? ==> AllImportable(fetched.value, Things3Uuid))
              && r == SyncSource(fetched, Things3Uuid, config, Some(ClassifierOf(world.ask)), store)
  {
    if !ThingsEnabled(config) then Step(SourceOff, store)
    else
      var fetched := FetchThings(config, world.library, world.thingsDates);
      ThingsImportable(config, world.library, world.thingsDates);
      SyncSource(fetched, Things3Uuid, config, Some(ClassifierOf(world.ask)), store)
  }

  /** `todo-sync asana`: the Asana step, never classified; a missing token fails the fetch. */
  function AsanaCommand<E>(config: Settings, world: World<E>, store: Store): (r: Step)
    requires WellTyped(config)
    ensures !AsanaConfigured(config) ==> r == Step(FetchFailed, store)
    ensures var fetched := AsanaReader.FetchAsanaTasks(config, world.listing, world.tasksOf, world.asanaDates);
            && (fetched.Ok? ==> AllImportable(fetched.value, AsanaGid))
            && r == SyncSource(fetched, AsanaGid, config, None, store)
  {
    AsanaImportable(config, world.listing, world.tasksOf, world.asanaDates);
    SyncSource(AsanaReader.FetchAsanaTasks(config, world.listing, world.tasksOf, world.asanaDates), AsanaGid, config, None, store)
  }

  /** The Asana step never asks the classifier: its result does not depend on the model. */
  lemma AsanaIgnoresClassifier<E>(config: Settings, world: World<E>, ask: Oracle, store: Store)
    requires WellTyped(config)
    ensures AsanaCommand(config, world.(ask := ask), store) == AsanaCommand(config, world, store)
  {
  }

  /** With `ollama.enabled` off, the Things step does not depend on the model either. */
  lemma ThingsWithoutOllama<E>(config: Settings, world: World<E>, ask: Oracle, store: Store)
    requires WellTyped(config) && !OllamaEnabled(config)
    ensures ThingsCommand(config, world.(ask := ask), store) == ThingsCommand(config, world, store)
  {
  }

  /** What `todo-sync all` did for each source, and the store afterwards. */
  datatype AllRun = AllRun(things: Outcome, asana: Outcome, store: Store)

  /**
   * `todo-sync all`: Things first unless disabled, then Asana when its token
   * is configured. A crash in the Things step ends the command there.
   */
  function SyncAll<E>(config: Settings, world: World<E>, store: Store): (r: AllRun)
    requires WellTyped(config)
    ensures !ThingsEnabled(config) <==> r.things == SourceOff
    ensures r.things == Crashed ==> r.asana == NotReached
    ensures r.things != Crashed && !AsanaConfigured(config) ==> r.asana == SourceOff
    ensures r.asana == NotReached <==> r.things == Crashed
    ensures r.things == ThingsCommand(config, world, store).outcome
    ensures r.things != Crashed && AsanaConfigured(config) ==>
              var t := ThingsCommand(config, world, store);
              var a := AsanaCommand(config, world, t.store);
              r.asana == a.outcome && r.store == a.store
    ensures r.things == Crashed || !AsanaConfigured(config) ==> r.store == ThingsCommand(config, world, store).store
  {
    var t := ThingsCommand(config, world, store);
    if t.outcome == Crashed then AllRun(Crashed, NotReached, t.store)
    else if AsanaConfigured(config) then
      var a := AsanaCommand(config, world, t.store);
      AllRun(t.outcome, a.outcome, a.store)
    else AllRun(t.outcome, SourceOff, t.store)
  }

  /** With the default settings `all` syncs Things and skips Asana. */
  lemma DefaultsSyncOnlyThings<E>(world: World<E>, store: Store)
    ensures WellTyped(LoadConfig(None))
    ensures var r := SyncAll(LoadConfig(None), world, store);
            r.things != SourceOff && (r.asana == SourceOff || r.asana == NotReached)
  {
    DefaultsWellTyped();
  }

  /**
   * `all` never puts an id of either source on two open tasks: each step
   * keeps its own ids unique and leaves the other source's ids alone.
   */
  lemma SyncAllKeepsUnique<E>(config: Settings, world: World<E>, store: Store)
    requires WellTyped(config)
    requires Unique(store, Things3Uuid) && Unique(store, AsanaGid)
    ensures Unique(SyncAll(config, world, store).store, Things3Uuid)
    ensures Unique(SyncAll(config, world, store).store, AsanaGid)
  {
    var t := ThingsCommand(config, world, store);
    if ThingsEnabled(config) {
      var fetched := FetchThings(config, world.library, world.thingsDates);
      var filter := Some(ClassifierOf(world.ask));
      ThingsImportable(config, world.library, world.thingsDates);
      SyncKeepsUnique(fetched, Things3Uuid, config, filter, store, Things3Uuid);
      SyncKeepsUnique(fetched, Things3Uuid, config, filter, store, AsanaGid);
    }
    if t.outcome != Crashed && AsanaConfigured(config) {
      var fetched := AsanaReader.FetchAsanaTasks(config, world.listing, world.tasksOf, world.asanaDates);
      AsanaImportable(config, world.listing, world.tasksOf, world.asanaDates);
      SyncKeepsUnique(fetched, AsanaGid, config, None, t.store, AsanaGid);
      SyncKeepsUnique(fetched, AsanaGid, config, None, t.store, Things3Uuid);
    }
  }
}

=== FILE: config.dfy ===
/**
 * The configuration: four fixed sections of defaults, each shallowly
 * overridden by the section of the same name in the user's TOML file.
 * Reading and parsing the file is outside the model; the parsed file, when
 * there is one, is an input.
 */
module Config {
  import opened Wrappers
  import opened Values

  /** One TOML table: setting name to value. */
  type Section = map<string, Value>

  /** Section name to table. */
  type Settings = map<string, Section>

  const AsanaSection := "asana"
  const ThingsSection := "things"
  const SyncSection := "sync"
  const OllamaSection := "ollama"

  /** The placeholder token the setup writes when none was given. */
  const PlaceholderToken := "YOUR_TOKEN_HERE"

  /** The defaults `load_config` starts from. */
  function Defaults(): (r: Settings)
    ensures r.Keys == {AsanaSection, ThingsSection, SyncSection, OllamaSection}
  {
    map[
      AsanaSection := map["personal_access_token" := Str(""), "workspace" := Str("")],
      ThingsSection := map["enabled" := Flag(true), "areas" := Strs([])],
      SyncSection := map["things_tag" := Str("things3"), "asana_tag" := Str("asana")],
      OllamaSection := map[
        "enabled" := Flag(true),
        "model" := Str("lfm2.5-thinking"),
        "base_url" := Str("http://localhost:11434")]]
  }

  /** `vals.update(user_vals)`: the user's settings win, every other default stays. */
  function Override(base: Section, user: Section): (r: Section)
    ensures r.Keys == base.Keys + user.Keys
    ensures forall k :: k in user ==> r[k] == user[k]
    ensures forall k :: k in base && k !in user ==> r[k] == base[k]
  {
    base + user
  }

  /** The user's table for a section, or the empty one when the file has none. */
  function UserSection(user: Settings, name: string): Section {
    if name in user then user[name] else map[]
  }

  /**
   * The loop of `load_config`: each section of `defaults` overridden by the
   * user's section of that name; sections `defaults` does not have are dropped.
   */
  function Merge(defaults: Settings, user: Settings): (r: Settings)
    ensures r.Keys == defaults.Keys
    ensures forall s :: s in r ==> r[s].Keys == defaults[s].Keys + UserSection(user, s).Keys
    ensures forall s, k :: s in r && k in UserSection(user, s) ==> r[s][k] == user[s][k]
    ensures forall s, k :: s in r && k in defaults[s] && k !in UserSection(user, s) ==> r[s][k] == defaults[s][k]
  {
    map s | s in defaults :: Override(defaults[s], UserSection(user, s))
  }

  /** `load_config`: the defaults when there is no file, else the defaults merged with it. */
  function LoadConfig(file: Option<Settings>): (r: Settings)
    ensures r.Keys == Defaults().Keys
    ensures file.None? ==> r == Defaults()
    ensures file.Some? ==> r == Merge(Defaults(), file.value)
  {
    match file
    case None => Defaults()
    case Some(user) => Merge(Defaults(), user)
  }

  /** Merging a file with no known section changes nothing. */
  lemma MergeNothing(defaults: Settings, user: Settings)
    requires forall s :: s in defaults ==> s !in user || user[s] == map[]
    ensures Merge(defaults, user) == defaults
  {
    var r := Merge(defaults, user);
    forall s | s in r ensures r[s] == defaults[s] {
      assert UserSection(user, s) == map[];
    }
  }

  /** A file with nothing in it, or with only unknown sections, loads as the defaults. */
  lemma EmptyFileIsDefaults(user: Settings)
    requires forall s :: s in Defaults() ==> s !in user || user[s] == map[]
    ensures LoadConfig(Some(user)) == Defaults()
  {
    MergeNothing(Defaults(), user);
  }

  /** Merging is idempotent: merging the result again changes nothing. */
  lemma MergeStable(defaults: Settings, user: Settings)
    ensures Merge(defaults, Merge(defaults, user)) == Merge(defaults, user)
  {
    var r := Merge(defaults, user);
    var rr := Merge(defaults, r);
    forall s | s in rr ensures rr[s] == r[s] {
      var base, mine := defaults[s], UserSection(user, s);
      assert r[s] == Override(base, mine);
      assert rr[s] == Override(base, UserSection(r, s));
      assert UserSection(r, s) == r[s];
      OverrideAbsorbs(base, mine);
    }
  }

  /** Overriding with an already overridden table changes nothing more. */
  lemma OverrideAbsorbs(base: Section, user: Section)
    ensures Override(base, Override(base, user)) == Override(base, user)
  {
  }

  /** Loading is a fixpoint: a file holding the loaded settings loads to the same settings. */
  lemma LoadConfigStable(file: Option<Settings>)
    ensures LoadConfig(Some(LoadConfig(file))) == LoadConfig(file)
  {
    match file
    case None => MergeNothingKnown(Defaults());
    case Some(user) => MergeStable(Defaults(), user);
  }

  /** Merging the defaults themselves gives the defaults. */
  lemma MergeNothingKnown(defaults: Settings)
    ensures Merge(defaults, defaults) == defaults
  {
    var r := Merge(defaults, defaults);
    forall s | s in r ensures r[s] == defaults[s] {
      assert UserSection(defaults, s) == defaults[s];
    }
  }

  /** Only the user's sections that the defaults name matter. */
  lemma UnknownSectionsIgnored(defaults: Settings, user: Settings, extra: string, table: Section)
    requires extra !in defaults
    ensures Merge(defaults, user[extra := table]) == Merge(defaults, user)
  {
    var a := Merge(defaults, user[extra := table]);
    var b := Merge(defaults, user);
    forall s | s in a ensures a[s] == b[s] {
      assert UserSection(user[extra := table], s) == UserSection(user, s);
    }
  }

  /** `config.get(section, {}).get(key, default)`. */
  function Setting(config: Settings, section: string, key: string, default: Value): Value {
    if section in config && key in config[section] then config[section][key] else default
  }

  /**
   * The settings the readers use as text or as a list have that type (any
   * other type would make the source misbehave rather than fail cleanly).
   */
  predicate WellTyped(config: Settings) {
    && Setting(config, AsanaSection, "personal_access_token", Str("")).Str?
    && Setting(config, AsanaSection, "workspace", Str("")).Str?
    && Setting(config, ThingsSection, "areas", Strs([])).Strs?
    && Setting(config, SyncSection, "things_tag", Str("things3")).Str?
    && Setting(config, SyncSection, "asana_tag", Str("asana")).Str?
  }

  /** The user's file keeps those settings well typed when it gives them the same types. */
  lemma LoadConfigWellTyped(file: Option<Settings>)
    requires file.Some? ==> WellTyped(file.value)
    ensures WellTyped(LoadConfig(file))
  {
    DefaultsWellTyped();
  }

  /** The defaults are well typed. */
  lemma DefaultsWellTyped()
    ensures WellTyped(Defaults())
  {
  }
}

=== FILE: ollama_filter.dfy ===
/**
 * The task classifier: how one model reply is turned into a keep/drop
 * decision, and how `filter_tasks` splits a task list with it. The HTTP
 * request to the model is an oracle: given the title and the notes section
 * it formats into the prompt, it answers with a reply (or fails).
 */
module OllamaFilter {
  import opened Wrappers
  import opened Values
  import opened Text
  import opened Seqs
  import opened Taskwarrior

  // ---------------------------------------------------------------------------
  // The prompt's notes section

  const NotesLabel := "Notes: "

  /** The notes line of the prompt: empty when there are no notes. */
  function NotesSection(notes: string): (r: string)
    ensures r == [] <==> notes == []
    ensures notes != [] ==> |r| == |NotesLabel| + |notes| + 1
    ensures notes != [] ==> StartsWith(r, NotesLabel) && r[|r| - 1] == '\n' && r[|NotesLabel|..|r| - 1] == notes
  {
    if notes == [] then [] else NotesLabel + notes + "\n"
  }

  /** Reads the notes back out of a notes section; the empty section carries none. */
  function NotesOfSection(section: string): (r: string)
    ensures |r| <= |section|
  {
    if StartsWith(section, NotesLabel) && |section| > |NotesLabel| && section[|section| - 1] == '\n'
    then section[|NotesLabel|..|section| - 1]
    else []
  }

  /** The notes section loses nothing: the notes can always be recovered from it. */
  lemma NotesSectionRoundTrip(notes: string)
    ensures NotesOfSection(NotesSection(notes)) == notes
  {
  }

  /** Different notes give different prompts. */
  lemma NotesSectionInjective(a: string, b: string)
    requires NotesSection(a) == NotesSection(b)
    ensures a == b
  {
    NotesSectionRoundTrip(a);
    NotesSectionRoundTrip(b);
  }

  // ---------------------------------------------------------------------------
  // Reading the model's answer

  /** The tag that closes a reasoning model's thinking. */
  const ThinkClose := "</think>"

  /** The tag opens with `<`, closes with `>` and has no other `<`, so two copies cannot overlap. */
  lemma ThinkCloseShape()
    ensures |ThinkClose| == 8 && ThinkClose[0] == '<' && ThinkClose[7] == '>'
    ensures forall d :: 1 <= d < 8 ==> ThinkClose[d] != '<'
    ensures Lower(ThinkClose) == ThinkClose
  {
  }

  /** Stripping cannot create an occurrence of a separator that was not there. */
  lemma StripKeepsAbsence(s: string, sep: string)
    requires forall n :: !OccursAt(s, sep, n)
    ensures forall n :: !OccursAt(Strip(s), sep, n)
  {
    var i, j := StripSlice(s);
    NoOccurrenceInSlice(s, sep, i, j);
  }

  /** Lower-casing the stripped text leaves its ends non-space. */
  lemma LowerStripEnds(s: string)
    ensures Trimmed(Lower(Strip(s)))
  {
    LowerKeepsSpaces(Strip(s));
  }

  /**
   * The answer the decision looks at: the reply stripped and lower-cased,
   * and, when it holds a `</think>`, only the stripped text after the last one.
   */
  function FinalAnswer(response: string): (r: string)
    ensures forall n :: !OccursAt(r, ThinkClose, n)
    ensures Trimmed(r)
  {
    var low := Lower(Strip(response));
    LowerStripEnds(response);
    if Contains(low, ThinkClose) then
      var after := AfterLast(low, ThinkClose);
      StripKeepsAbsence(after, ThinkClose);
      Strip(after)
    else low
  }

  /** Two copies of the tag can never overlap. */
  lemma ThinkCloseNoSelfOverlap()
    ensures NoSelfOverlap(ThinkClose)
  {
    ThinkCloseShape();
    forall d | 0 < d < |ThinkClose| ensures !Border(ThinkClose, d) {
      assert ThinkClose[d..][0] == ThinkClose[d];
      assert ThinkClose[..|ThinkClose| - d][0] == '<';
    }
  }

  /**
   * The answer is what the reply's own steps produce: strip, lower-case, and,
   * when the tag occurs, the stripped last piece of splitting at the tag.
   */
  lemma FinalAnswerSplits(response: string)
    ensures var low := Lower(Strip(response));
            FinalAnswer(response) == if Contains(low, ThinkClose) then Strip(SplitLast(low, ThinkClose, 0)) else low
  {
    ThinkCloseNoSelfOverlap();
    SplitLastIsAfterLast(Lower(Strip(response)), ThinkClose);
  }

  /** `classify_task`'s verdict on a reply: keep the task iff the answer starts with "yes". */
  function Decide(response: string): (r: bool)
    ensures var low := Lower(Strip(response));
            r <==> StartsWith(if Contains(low, ThinkClose) then Strip(SplitLast(low, ThinkClose, 0)) else low, "yes")
  {
    FinalAnswerSplits(response);
    StartsWith(FinalAnswer(response), "yes")
  }

  /** With no thinking tag, the answer is the whole reply, stripped and lower-cased. */
  lemma PlainAnswer(response: string)
    requires !Contains(Lower(response), ThinkClose)
    ensures FinalAnswer(response) == Lower(Strip(response))
  {
    var i, j := StripSlice(response);
    LowerSlice(response, i, j);
    NoOccurrenceInSlice(Lower(response), ThinkClose, i, j);
  }

  /** Helper: `strip()` of reasoning, tag and answer strips only the outer ends. */
  lemma StripAroundTag(t: string, a: string)
    ensures Strip(t + ThinkClose + a) == TrimStart(t) + ThinkClose + TrimEnd(a)
  {
    var p := TrimStart(t) + ThinkClose;
    ThinkCloseShape();
    TrimStartBeforeTag(t, a);
    assert TrimStart(t) + ThinkClose + a == p + a;
    TrimEndAfterTag(p, a);
  }

  /** Helper: `lstrip()` stops at the tag at the latest. */
  lemma TrimStartBeforeTag(t: string, a: string)
    ensures TrimStart(t + ThinkClose + a) == TrimStart(t) + ThinkClose + a
  {
    var y := ThinkClose + a;
    assert y[0] == '<';
    TrimStartAppend(t, y);
    ConcatAssoc(t, ThinkClose, a);
    ConcatAssoc(TrimStart(t), ThinkClose, a);
  }

  /** Helper: `rstrip()` stops at the tag at the latest. */
  lemma TrimEndAfterTag(p: string, a: string)
    requires p != [] && p[|p| - 1] == '>'
    ensures TrimEnd(p + a) == p + TrimEnd(a)
  {
    TrimEndAppend(p, a);
  }

  /** An occurrence at or after position `k` is an occurrence in `s[k..]`. */
  lemma OccurrenceInSuffix(s: string, sep: string, k: nat, n: int)
    requires k <= n && k <= |s|
    ensures OccursAt(s, sep, n) ==> OccursAt(s[k..], sep, n - k)
  {
    if n + |sep| <= |s| {
      assert s[k..][n - k..n - k + |sep|] == s[n..n + |sep|];
    }
  }

  /** Helper: no occurrence of the tag starts inside or after the tag placed at `|p|`. */
  lemma NoLaterTag(p: string, a: string, j: int)
    requires forall n :: !OccursAt(a, ThinkClose, n)
    requires |p| < j
    ensures !OccursAt(p + ThinkClose + a, ThinkClose, j)
  {
    ThinkCloseShape();
    var s := p + ThinkClose + a;
    if j < |p| + 8 {
      assert s[j] == ThinkClose[j - |p|];
      assert j + 8 <= |s| ==> s[j..j + 8][0] == s[j];
    } else {
      OccurrenceInSuffix(s, ThinkClose, |p| + 8, j);
      assert s[|p| + 8..] == a;
    }
  }

  /** Helper: the text after the last tag of `p + tag + a` is `a` when `a` has none. */
  lemma AfterLastTag(p: string, a: string)
    requires forall n :: !OccursAt(a, ThinkClose, n)
    ensures Contains(p + ThinkClose + a, ThinkClose)
    ensures AfterLast(p + ThinkClose + a, ThinkClose) == a
  {
    var s := p + ThinkClose + a;
    assert s[|p|..|p| + |ThinkClose|] == ThinkClose;
    assert OccursAt(s, ThinkClose, |p|);
    forall j | |p| < j ensures !OccursAt(s, ThinkClose, j) {
      NoLaterTag(p, a, j);
    }
    assert LastIndex(s, ThinkClose) == Some(|p|);
    assert s[|p| + |ThinkClose|..] == a;
  }

  /**
   * Whatever a reasoning model thinks before its last `</think>`, the verdict
   * depends only on what it says after it.
   */
  lemma ReasoningIgnored(thinking: string, answer: string)
    requires !Contains(Lower(answer), ThinkClose)
    ensures FinalAnswer(thinking + ThinkClose + answer) == FinalAnswer(answer)
    ensures Decide(thinking + ThinkClose + answer) == Decide(answer)
  {
    ThinkCloseShape();
    StripAroundTag(thinking, answer);
    var e := TrimEnd(answer);
    LowerAppend(TrimStart(thinking) + ThinkClose, e);
    LowerAppend(TrimStart(thinking), ThinkClose);
    var low := Lower(Strip(thinking + ThinkClose + answer));
    assert low == Lower(TrimStart(thinking)) + ThinkClose + Lower(e);
    LowerSlice(answer, 0, |e|);
    assert answer[0..|e|] == e;
    NoOccurrenceInSlice(Lower(answer), ThinkClose, 0, |e|);
    AfterLastTag(Lower(TrimStart(thinking)), Lower(e));
    StripLowerCommute(e);
    StripOfTrimEnd(answer);
    PlainAnswer(answer);
  }

  /** `lower()` is idempotent. */
  lemma LowerTwice(s: string)
    ensures Lower(Lower(s)) == Lower(s)
  {
  }

  /** The verdict does not depend on letter case. */
  lemma DecideIgnoresCase(response: string)
    ensures FinalAnswer(Lower(response)) == FinalAnswer(response)
    ensures Decide(Lower(response)) == Decide(response)
  {
    StripLowerCommute(response);
    LowerTwice(Strip(response));
    SameNormalForm(Lower(response), response);
  }

  /** The verdict does not depend on surrounding whitespace. */
  lemma DecideIgnoresPadding(response: string)
    ensures FinalAnswer(Strip(response)) == FinalAnswer(response)
    ensures Decide(Strip(response)) == Decide(response)
  {
    StripNoop(Strip(response));
    SameNormalForm(Strip(response), response);
  }

  /** Replies that strip and lower-case to the same text get the same answer. */
  lemma SameNormalForm(a: string, b: string)
    requires Lower(Strip(a)) == Lower(Strip(b))
    ensures FinalAnswer(a) == FinalAnswer(b)
  {
  }

  // ---------------------------------------------------------------------------
  // One classification

  /**
   * The model's reply: the server could not be reached (URL error or
   * timeout), the body was not a JSON object with a text "response", or the
   * decoded body, whose "response" entry may be missing.
   */
  datatype Reply = Unreachable | Undecodable | Answered(response: Option<string>)

  /** The two ways `classify_task` fails: the `RuntimeError` it raises, or any other exception. */
  datatype Failure = CannotReach | BadReply

  /** The model behind the HTTP call, asked with the title and the notes section of the prompt. */
  type Oracle = (string, string) -> Reply

  /** `classify_task(title, notes)`. */
  function ClassifyTask(ask: Oracle, title: string, notes: string): (r: Result<bool, Failure>)
    ensures r == Err(CannotReach) <==> ask(title, NotesSection(notes)) == Unreachable
    ensures r == Err(BadReply) <==> ask(title, NotesSection(notes)) == Undecodable
    ensures r == Ok(true) <==> ask(title, NotesSection(notes)).Answered? && Decide(ask(title, NotesSection(notes)).response.GetOr([]))
  {
    match ask(title, NotesSection(notes))
    case Unreachable => Err(CannotReach)
    case Undecodable => Err(BadReply)
    case Answered(response) => Ok(Decide(response.GetOr([])))
  }

  // ---------------------------------------------------------------------------
  // filter_tasks

  /**
   * A task the classifier can read: its description, if any, is text and its
   * annotations, if any, are a list (as every built task dictionary is).
   */
  predicate Classifiable(task: Fields) {
    (DescriptionKey in task ==> task[DescriptionKey].Str?) && AnnotationsWellFormed(task)
  }

  /** The title the classifier sees: the description, or "" when the task has none. */
  function TitleOf(task: Fields): (r: string)
    ensures DescriptionKey in task && task[DescriptionKey].Str? ==> Str(r) == task[DescriptionKey]
    ensures DescriptionKey !in task ==> r == []
  {
    if DescriptionKey in task && task[DescriptionKey].Str? then task[DescriptionKey].s else []
  }

  /** The notes the classifier sees: the first annotation, or "" when there is none. */
  function NotesOf(task: Fields): (r: string)
    ensures AnnotationsKey !in task ==> r == []
    ensures AnnotationsKey in task && task[AnnotationsKey] == Strs([]) ==> r == []
    ensures AnnotationsKey in task && task[AnnotationsKey].Strs? && task[AnnotationsKey].items != [] ==> r == task[AnnotationsKey].items[0]
  {
    if AnnotationsKey in task && task[AnnotationsKey].Strs? && task[AnnotationsKey].items != []
    then task[AnnotationsKey].items[0]
    else []
  }

  /** The classifier's answer for one task. */
  function Verdict(ask: Oracle, task: Fields): (r: Result<bool, Failure>)
    ensures var reply := ask(TitleOf(task), NotesSection(NotesOf(task)));
            r == Ok(true) <==> reply.Answered? && Decide(reply.response.GetOr([]))
  {
    ClassifyTask(ask, TitleOf(task), NotesOf(task))
  }

  /**
   * For a built task dictionary the classifier is asked with the description
   * and the first note the reader passed in (none when there were no notes).
   */
  lemma VerdictOfBuilt(ask: Oracle, t: TaskInput)
    ensures Classifiable(BuildTaskData(t))
    ensures Verdict(ask, BuildTaskData(t)) == ClassifyTask(ask, t.description, if t.annotations == [] then [] else t.annotations[0])
  {
    BuildTaskDataShape(t);
    BuildTaskDataOptionalValues(t);
  }

  /** A per-task classifier, as `filter_tasks` uses one. */
  type Classifier = Fields -> Result<bool, Failure>

  /** `classify_task` applied to a task dictionary's title and first annotation. */
  function ClassifierOf(ask: Oracle): Classifier {
    task => Verdict(ask, task)
  }

  /** The tasks the classifier keeps. */
  function Kept(classify: Classifier): Fields -> bool {
    task => classify(task) == Ok(true)
  }

  /** The tasks the classifier drops. */
  function Dropped(classify: Classifier): Fields -> bool {
    task => classify(task) == Ok(false)
  }

  datatype Partition = Partition(included: seq<Fields>, excluded: seq<Fields>)

  /** Every task among the first `n` was classified without failure. */
  predicate AllClassified(classify: Classifier, tasks: seq<Fields>, n: int) {
    forall i :: 0 <= i < n && i < |tasks| ==> classify(tasks[i]).Ok?
  }

  /**
   * `filter_tasks`: classifies the tasks in order. The first failure aborts
   * the whole call; otherwise the kept tasks and the dropped tasks come back
   * as two lists, each in input order.
   */
  function FilterTasks(classify: Classifier, tasks: seq<Fields>): (r: Result<Partition, Failure>)
    ensures r.Ok? <==> AllClassified(classify, tasks, |tasks|)
    decreases |tasks|
  {
    if tasks == [] then Ok(Partition([], []))
    else
      match classify(tasks[0])
      case Err(e) => Err(e)
      case Ok(keep) =>
        TailClassified(classify, tasks, |tasks| - 1);
        match FilterTasks(classify, tasks[1..])
        case Err(e) => Err(e)
        case Ok(p) =>
          if keep then Ok(Partition([tasks[0]] + p.included, p.excluded))
          else Ok(Partition(p.included, [tasks[0]] + p.excluded))
  }

  /** Helper: the first `i + 1` tasks are classified iff the head is and the next `i` are. */
  lemma TailClassified(classify: Classifier, tasks: seq<Fields>, i: nat)
    requires i < |tasks|
    ensures AllClassified(classify, tasks[1..], i) && classify(tasks[0]).Ok? <==> AllClassified(classify, tasks, i + 1)
  {
    if AllClassified(classify, tasks, i + 1) {
      forall m | 0 <= m < i && m < |tasks| - 1 ensures classify(tasks[1..][m]).Ok? {
        assert tasks[1..][m] == tasks[m + 1];
      }
    }
    if AllClassified(classify, tasks[1..], i) && classify(tasks[0]).Ok? {
      forall k | 0 <= k < i + 1 && k < |tasks| ensures classify(tasks[k]).Ok? {
        if k > 0 {
          assert tasks[k] == tasks[1..][k - 1];
        }
      }
    }
  }

  /** A failed call reports the failure of the first task the classifier could not decide. */
  lemma {:induction false} FilterTasksFirstFailure(classify: Classifier, tasks: seq<Fields>)
    requires FilterTasks(classify, tasks).Err?
    ensures exists i :: 0 <= i < |tasks| && AllClassified(classify, tasks, i) && classify(tasks[i]) == Err(FilterTasks(classify, tasks).error)
    decreases |tasks|
  {
    var e := FilterTasks(classify, tasks).error;
    if classify(tasks[0]).Err? {
      assert AllClassified(classify, tasks, 0);
    } else {
      TailClassified(classify, tasks, |tasks| - 1);
      FilterTasksFirstFailure(classify, tasks[1..]);
      var i :| 0 <= i < |tasks| - 1 && AllClassified(classify, tasks[1..], i) && classify(tasks[1..][i]) == Err(e);
      TailClassified(classify, tasks, i);
      assert AllClassified(classify, tasks, i + 1) && classify(tasks[i + 1]) == Err(e);
    }
  }

  /** The two lists are exactly the kept and the dropped tasks selected by a list comprehension. */
  lemma {:induction false} FilterTasksSelects(classify: Classifier, tasks: seq<Fields>)
    requires FilterTasks(classify, tasks).Ok?
    ensures FilterTasks(classify, tasks).value.included == Filter(tasks, Kept(classify))
    ensures FilterTasks(classify, tasks).value.excluded == Filter(tasks, Dropped(classify))
    decreases |tasks|
  {
    if tasks != [] {
      TailClassified(classify, tasks, |tasks| - 1);
      FilterTasksSelects(classify, tasks[1..]);
    }
  }

  /** When filtering succeeds, every task lands in exactly one of the two lists, as often as it occurs in the input. */
  lemma FilterTasksPartition(classify: Classifier, tasks: seq<Fields>)
    requires FilterTasks(classify, tasks).Ok?
    ensures var p := FilterTasks(classify, tasks).value;
            multiset(p.included) + multiset(p.excluded) == multiset(tasks)
  {
    assert AllClassified(classify, tasks, |tasks|);
    forall t | t in tasks ensures Kept(classify)(t) <==> !Dropped(classify)(t) {
      var i :| 0 <= i < |tasks| && tasks[i] == t;
      assert classify(t).Ok?;
      var keep: bool := classify(t).value;
      assert classify(t) == Ok(keep);
    }
    FilterTasksSelects(classify, tasks);
    FilterSplit(tasks, Kept(classify), Dropped(classify));
  }

  /** Both lists keep the input order; the first holds only kept tasks, the second only dropped ones. */
  lemma FilterTasksOrder(classify: Classifier, tasks: seq<Fields>)
    requires FilterTasks(classify, tasks).Ok?
    ensures var p := FilterTasks(classify, tasks).value;
            && IsSubseq(p.included, tasks) && IsSubseq(p.excluded, tasks)
            && (forall t :: t in p.included ==> classify(t) == Ok(true))
            && (forall t :: t in p.excluded ==> classify(t) == Ok(false))
  {
    FilterTasksSelects(classify, tasks);
  }
}

=== FILE: seqs.dfy ===
/** Order-preserving selection over sequences, used by every list comprehension of the source. */
module Seqs {

  /** `xs` can be obtained from `ys` by deleting elements, keeping the order of the rest. */
  predicate IsSubseq<T(==)>(xs: seq<T>, ys: seq<T>)
    decreases |ys|
  {
    if ys == [] then xs == []
    else (xs != [] && xs[0] == ys[0] && IsSubseq(xs[1..], ys[1..])) || IsSubseq(xs, ys[1..])
  }

  /** Number of occurrences of `x` in `s`. */
  function Count<T(==)>(s: seq<T>, x: T): nat {
    multiset(s)[x]
  }

  /** `[x for x in s if p(x)]`. */
  function Filter<T(==)>(s: seq<T>, p: T -> bool): (r: seq<T>)
    ensures IsSubseq(r, s)
    ensures forall x :: x in r ==> x in s && p(x)
    ensures forall x :: x in s && p(x) ==> Count(r, x) == Count(s, x)
    ensures forall x :: x in s && !p(x) ==> x !in r
  {
    if s == [] then []
    else
      var rest := Filter(s[1..], p);
      assert s == [s[0]] + s[1..];
      assert multiset(s) == multiset{s[0]} + multiset(s[1..]);
      if p(s[0]) then
        var r := [s[0]] + rest;
        assert r[1..] == rest;
        assert multiset(r) == multiset{s[0]} + multiset(rest);
        r
      else rest
  }

  /** A sequence is a subsequence of itself. */
  lemma {:induction false} SubseqRefl<T>(s: seq<T>)
    ensures IsSubseq(s, s)
    decreases |s|
  {
    if s != [] {
      SubseqRefl(s[1..]);
    }
  }

  /** Concatenation is associative. */
  lemma ConcatAssoc<T>(x: seq<T>, y: seq<T>, z: seq<T>)
    ensures x + y + z == x + (y + z)
  {
  }

  /** Dropping the head of a concatenation drops the head of its first part. */
  lemma TailOfConcat<T>(xs: seq<T>, ys: seq<T>)
    requires xs != []
    ensures (xs + ys)[0] == xs[0] && (xs + ys)[1..] == xs[1..] + ys
  {
  }

  /** Every element of a subsequence is an element of the whole. */
  lemma {:induction false} SubseqMembers<T>(xs: seq<T>, ys: seq<T>)
    requires IsSubseq(xs, ys)
    ensures forall x :: x in xs ==> x in ys
    decreases |ys|
  {
    if ys != [] {
      if xs != [] && xs[0] == ys[0] && IsSubseq(xs[1..], ys[1..]) {
        SubseqMembers(xs[1..], ys[1..]);
        assert xs == [xs[0]] + xs[1..];
      } else {
        SubseqMembers(xs, ys[1..]);
      }
    }
  }

  /** Selecting with a predicate and with its complement splits a sequence: together the two selections hold every element exactly as often. */
  lemma {:induction false} FilterSplit<T>(s: seq<T>, p: T -> bool, q: T -> bool)
    requires forall x :: x in s ==> (p(x) <==> !q(x))
    ensures multiset(Filter(s, p)) + multiset(Filter(s, q)) == multiset(s)
  {
    if s != [] {
      FilterSplit(s[1..], p, q);
      assert s == [s[0]] + s[1..];
    }
  }
}

=== FILE: taskwarrior.dfy ===
/**
 * The Taskwarrior side of the sync: lookup by external id, the
 * create-or-update-or-skip rule, and the normalised task dictionary the
 * readers hand to it. The Taskwarrior database is an in-memory sequence of
 * records; an upsert is a pure function from one store to the next.
 */
module Taskwarrior {
  import opened Wrappers
  import opened Values
  import opened Text
  import opened Seqs

  /** The user-defined attributes that carry a task's identity in its source. */
  datatype IdField = Things3Uuid | AsanaGid {
    function Key(): string {
      match this
      case Things3Uuid => "things3_uuid"
      case AsanaGid => "asana_gid"
    }
  }

  const DescriptionKey := "description"
  const SourceKey := "source"
  const TagsKey := "tags"
  const ProjectKey := "project"
  const DueKey := "due"
  const PriorityKey := "priority"
  const AnnotationsKey := "annotations"

  /** Longest annotation text attached on creation. */
  const AnnotationLimit: nat := 1000

  /** A task dictionary: attribute name to value. */
  type Fields = map<string, Value>

  datatype Status = Pending | Waiting | Completed | Deleted | Recurring

  /** One Taskwarrior task: its status, its attributes and its annotations. */
  datatype Record = Record(status: Status, fields: Fields, annotations: seq<string>)

  /** The Taskwarrior database, in the order its filters return tasks. */
  type Store = seq<Record>

  /** The two statuses lookup searches. */
  predicate Active(r: Record) {
    r.status == Pending || r.status == Waiting
  }

  /** The record's id attribute holds exactly `id`. */
  predicate Carries(r: Record, field: IdField, id: string) {
    field.Key() in r.fields && r.fields[field.Key()] == Str(id)
  }

  /** Position `i` is answered by `tw.tasks.filter(status=status, **{field: id})`. */
  predicate Hit(store: Store, status: Status, field: IdField, id: string, i: int) {
    0 <= i < |store| && store[i].status == status && Carries(store[i], field, id)
  }

  /** The first answer of a status-and-id filter, scanning from position `from`. */
  function FirstHit(store: Store, status: Status, field: IdField, id: string, from: nat): (r: Option<nat>)
    requires from <= |store|
    ensures r.Some? ==> from <= r.value && Hit(store, status, field, id, r.value)
    ensures r.Some? ==> forall j :: from <= j < r.value ==> !Hit(store, status, field, id, j)
    ensures r.None? ==> forall j :: from <= j ==> !Hit(store, status, field, id, j)
    decreases |store| - from
  {
    if from == |store| then None
    else if Hit(store, status, field, id, from) then Some(from)
    else FirstHit(store, status, field, id, from + 1)
  }

  /**
   * `find_by_external_id`: the first pending task carrying the id, else the
   * first waiting one, else nothing. Completed, deleted and recurring tasks
   * are never found.
   */
  function FindByExternalId(store: Store, field: IdField, id: string): (r: Option<nat>)
    ensures r.Some? ==> r.value < |store| && Active(store[r.value]) && Carries(store[r.value], field, id)
    ensures r.Some? ==> forall j :: 0 <= j < r.value ==> !Hit(store, store[r.value].status, field, id, j)
    ensures r.Some? && store[r.value].status == Waiting ==> forall j :: !Hit(store, Pending, field, id, j)
    ensures (exists j :: Hit(store, Pending, field, id, j)) ==> r.Some? && store[r.value].status == Pending
    ensures r.None? <==> forall j :: 0 <= j < |store| ==> !(Active(store[j]) && Carries(store[j], field, id))
  {
    match FirstHit(store, Pending, field, id, 0)
    case Some(i) => Some(i)
    case None =>
      assert forall j :: 0 <= j < |store| && Active(store[j]) && Carries(store[j], field, id) ==>
        Hit(store, Pending, field, id, j) || Hit(store, Waiting, field, id, j);
      FirstHit(store, Waiting, field, id, 0)
  }

  /** Lookup depends only on which positions each status filter answers. */
  lemma FindDeterminedByHits(s1: Store, s2: Store, field: IdField, id: string)
    requires |s1| == |s2|
    requires forall j :: Hit(s1, Pending, field, id, j) <==> Hit(s2, Pending, field, id, j)
    requires forall j :: Hit(s1, Waiting, field, id, j) <==> Hit(s2, Waiting, field, id, j)
    ensures FindByExternalId(s1, field, id) == FindByExternalId(s2, field, id)
  {
    var p1, p2 := FirstHit(s1, Pending, field, id, 0), FirstHit(s2, Pending, field, id, 0);
    if p1.Some? && p2.Some? {
      assert !(p1.value < p2.value) && !(p2.value < p1.value);
    }
    var w1, w2 := FirstHit(s1, Waiting, field, id, 0), FirstHit(s2, Waiting, field, id, 0);
    if w1.Some? && w2.Some? {
      assert !(w1.value < w2.value) && !(w2.value < w1.value);
    }
  }

  // ---------------------------------------------------------------------------
  // upsert_task

  /** The outcome `upsert_task` reports. */
  datatype Action = Created | Updated | Skipped

  /** The action, the store after it, and the position of the task it touched. */
  datatype Upserted = Upserted(action: Action, store: Store, index: nat)

  /** `upsert_task` iterates over annotations, so that entry, when present, is a list. */
  predicate AnnotationsWellFormed(data: Fields) {
    AnnotationsKey in data ==> data[AnnotationsKey].Strs?
  }

  /** The dictionary carries its own external id, as the sync step reads it back. */
  predicate KeyedBy(data: Fields, field: IdField, id: string) {
    field.Key() in data && data[field.Key()] == Str(id)
  }

  /** The annotation list taken out of the dictionary before the diff; empty when there is none. */
  function AnnotationsOf(data: Fields): seq<string>
    requires AnnotationsWellFormed(data)
  {
    if AnnotationsKey in data then data[AnnotationsKey].items else []
  }

  /** `task_data` once "annotations" has been popped from it. */
  function WithoutAnnotations(data: Fields): Fields {
    data - {AnnotationsKey}
  }

  /** The stored value of an attribute, or None when the task does not have it. */
  function Current(fields: Fields, key: string): Value {
    if key in fields then fields[key] else Null
  }

  /** Some incoming key has a non-None value that differs from the stored one. */
  predicate Differs(fields: Fields, incoming: Fields) {
    exists k :: k in incoming && incoming[k] != Null && Current(fields, k) != incoming[k]
  }

  /**
   * The stored attributes after the update loop: every non-None incoming value
   * is in place, None values write nothing, and every other attribute keeps
   * its key and value.
   */
  function Overwrite(fields: Fields, incoming: Fields): (r: Fields)
    ensures forall k :: k in incoming && incoming[k] != Null ==> k in r && r[k] == incoming[k]
    ensures forall k :: k !in incoming || incoming[k] == Null ==> (k in r <==> k in fields)
    ensures forall k :: k in fields && (k !in incoming || incoming[k] == fields[k] || incoming[k] == Null) ==> k in r && r[k] == fields[k]
    ensures r.Keys <= fields.Keys + incoming.Keys
  {
    fields + map k | k in incoming && incoming[k] != Null && Current(fields, k) != incoming[k] :: incoming[k]
  }

  /** The attributes whose value is not None, with their values. */
  function NonNull(data: Fields): (r: Fields)
    ensures forall k :: k in r <==> k in data && data[k] != Null
    ensures forall k :: k in r ==> r[k] == data[k]
  {
    map k | k in data && data[k] != Null :: data[k]
  }

  /** A note worth attaching: not empty and not only whitespace. */
  predicate Attachable(note: string) {
    Strip(note) != []
  }

  /** What a stored annotation looks like: non-empty, within the limit, not starting with whitespace. */
  predicate Cleaned(a: string) {
    0 < |a| <= AnnotationLimit && !IsSpace(a[0])
  }

  /** The note with its surrounding whitespace removed, cut to the first 1000 characters. */
  function CleanAnnotation(note: string): (r: string)
    requires Attachable(note)
    ensures Cleaned(r)
    ensures |r| == if |Strip(note)| <= AnnotationLimit then |Strip(note)| else AnnotationLimit
    ensures r == Strip(note)[..|r|]
  {
    var s := Strip(note);
    assert Trimmed(s) && s != [];
    var r := Truncate(s, AnnotationLimit);
    assert r[0] == s[0];
    r
  }

  /** The annotations attached to a new task, in input order, blank ones skipped. */
  function CleanAnnotations(notes: seq<string>): (r: seq<string>)
    ensures notes == [] ==> r == []
    ensures |r| <= |notes|
    ensures forall a :: a in r ==> Cleaned(a)
  {
    if notes == [] then []
    else
      var head := CleanedNote(notes[0]);
      assert forall a :: a in head ==> a == head[0];
      head + CleanAnnotations(notes[1..])
  }

  /** What one note contributes: its cleaned text, or nothing when blank. */
  function CleanedNote(note: string): (r: seq<string>)
    ensures |r| <= 1
    ensures r == [] <==> !Attachable(note)
    ensures r != [] ==> Cleaned(r[0])
    ensures r != [] ==> |r[0]| == (if |Strip(note)| <= AnnotationLimit then |Strip(note)| else AnnotationLimit)
    ensures r != [] ==> r[0] == Strip(note)[..|r[0]|]
  {
    if Attachable(note) then [CleanAnnotation(note)] else []
  }

  /** Cleaning works note by note: it distributes over concatenation. */
  lemma {:induction false} CleanAnnotationsAppend(a: seq<string>, b: seq<string>)
    ensures CleanAnnotations(a + b) == CleanAnnotations(a) + CleanAnnotations(b)
  {
    if a == [] {
      assert a + b == b;
    } else {
      var ab := a + b;
      assert ab[0] == a[0];
      assert ab[1..] == a[1..] + b;
      CleanAnnotationsAppend(a[1..], b);
      ConcatAssoc(CleanedNote(a[0]), CleanAnnotations(a[1..]), CleanAnnotations(b));
    }
  }

  /** A single note is cleaned exactly as CleanedNote says: stripped, cut to 1000 characters, or dropped when blank. */
  lemma CleanAnnotationsOne(note: string)
    ensures CleanAnnotations([note]) == CleanedNote(note)
  {
    assert [note][1..] == [];
  }

  /** A note that is non-blank, has no whitespace at either end and fits the limit. */
  predicate IsCleanNote(n: string) {
    0 < |n| <= AnnotationLimit && !IsSpace(n[0]) && !IsSpace(n[|n| - 1])
  }

  /** Notes that are already non-blank, stripped and short enough are attached unchanged. */
  lemma {:induction false} CleanAnnotationsKeepsCleanNotes(notes: seq<string>)
    requires forall n :: n in notes ==> IsCleanNote(n)
    ensures CleanAnnotations(notes) == notes
  {
    if notes != [] {
      CleanNoteKept(notes[0]);
      CleanAnnotationsKeepsCleanNotes(notes[1..]);
    }
  }

  /** A clean note is attached as it is. */
  lemma CleanNoteKept(n: string)
    requires IsCleanNote(n)
    ensures CleanedNote(n) == [n]
  {
    StripNoop(n);
  }

  /**
   * `upsert_task`: look the id up; on a match overwrite the differing non-None
   * attributes (annotations are never compared nor touched); without a match
   * append a new pending task holding exactly the non-None attributes and the
   * cleaned annotations.
   */
  function Upsert(store: Store, field: IdField, id: string, data: Fields): (r: Upserted)
    requires AnnotationsWellFormed(data)
    ensures r.index < |r.store|
    ensures r.action == Created <==> FindByExternalId(store, field, id).None?
    ensures r.action == Created ==>
              && |r.store| == |store| + 1 && r.store[..|store|] == store && r.index == |store|
              && r.store[|store|].status == Pending
              && (forall k :: k in r.store[|store|].fields <==> k != AnnotationsKey && k in data && data[k] != Null)
              && (forall k :: k in r.store[|store|].fields ==> r.store[|store|].fields[k] == data[k])
              && r.store[|store|].annotations == CleanAnnotations(AnnotationsOf(data))
    ensures r.action != Created ==>
              && |r.store| == |store| && FindByExternalId(store, field, id) == Some(r.index)
              && (forall j :: 0 <= j < |store| && j != r.index ==> r.store[j] == store[j])
              && r.store[r.index].status == store[r.index].status
              && r.store[r.index].annotations == store[r.index].annotations
              && r.store[r.index].fields == Overwrite(store[r.index].fields, WithoutAnnotations(data))
    ensures r.action == Updated <==>
              r.action != Created && Differs(store[r.index].fields, WithoutAnnotations(data))
    ensures r.action == Skipped ==> r.store == store
  {
    var incoming := WithoutAnnotations(data);
    match FindByExternalId(store, field, id)
    case Some(i) =>
      var rec := store[i];
      if Differs(rec.fields, incoming) then
        Upserted(Updated, store[i := rec.(fields := Overwrite(rec.fields, incoming))], i)
      else
        assert Overwrite(rec.fields, incoming) == rec.fields;
        Upserted(Skipped, store, i)
    case None =>
      var created := Record(Pending, NonNull(incoming), CleanAnnotations(AnnotationsOf(data)));
      assert forall k :: k in incoming <==> k != AnnotationsKey && k in data;
      assert (store + [created])[..|store|] == store;
      Upserted(Created, store + [created], |store|)
  }

  /**
   * Upserting the same dictionary twice in a row never creates twice: the
   * second call finds the task the first one created or updated, reports
   * "skipped" and leaves the store as it was.
   */
  lemma UpsertIdempotent(store: Store, field: IdField, id: string, data: Fields)
    requires AnnotationsWellFormed(data) && KeyedBy(data, field, id)
    ensures var first := Upsert(store, field, id, data);
            Upsert(first.store, field, id, data) == Upserted(Skipped, first.store, first.index)
  {
    var first := Upsert(store, field, id, data);
    if first.action == Created {
      FoundAfterCreate(store, field, id, data);
    } else {
      FoundAfterMatch(store, field, id, data);
    }
    assert !Differs(first.store[first.index].fields, WithoutAnnotations(data));
  }

  /** After a creation, lookup finds the task just appended. */
  lemma FoundAfterCreate(store: Store, field: IdField, id: string, data: Fields)
    requires AnnotationsWellFormed(data) && KeyedBy(data, field, id)
    requires Upsert(store, field, id, data).action == Created
    ensures var first := Upsert(store, field, id, data);
            FindByExternalId(first.store, field, id) == Some(first.index)
  {
    var s1 := Upsert(store, field, id, data).store;
    forall j | 0 <= j < |store| ensures !Hit(s1, Pending, field, id, j) {
      assert s1[j] == store[j];
    }
    assert Hit(s1, Pending, field, id, |store|);
  }

  /** After an update or a skip, lookup finds the same task again. */
  lemma FoundAfterMatch(store: Store, field: IdField, id: string, data: Fields)
    requires AnnotationsWellFormed(data) && KeyedBy(data, field, id)
    requires Upsert(store, field, id, data).action != Created
    ensures var first := Upsert(store, field, id, data);
            FindByExternalId(first.store, field, id) == Some(first.index)
  {
    var first := Upsert(store, field, id, data);
    var s1, i := first.store, first.index;
    assert Carries(s1[i], field, id);
    forall j, st | 0 <= j < |store| ensures Hit(s1, st, field, id, j) <==> Hit(store, st, field, id, j) {
      if j != i {
        assert s1[j] == store[j];
      }
    }
    FindDeterminedByHits(s1, store, field, id);
  }

  /** No two pending-or-waiting tasks share a value of the id attribute. */
  predicate Unique(store: Store, field: IdField) {
    forall i, j :: 0 <= i < j < |store| && Active(store[i]) && Active(store[j]) ==> !SameId(store[i], store[j], field)
  }

  /** Both tasks hold the same string in the id attribute. */
  predicate SameId(a: Record, b: Record, field: IdField) {
    && field.Key() in a.fields && field.Key() in b.fields
    && a.fields[field.Key()].Str? && a.fields[field.Key()] == b.fields[field.Key()]
  }

  /**
   * Search-before-create keeps each external id on at most one open task:
   * an upsert on `field` preserves uniqueness of `field`, and of any other id
   * attribute the dictionary does not mention.
   */
  lemma UpsertKeepsUnique(store: Store, field: IdField, id: string, data: Fields, other: IdField)
    requires AnnotationsWellFormed(data) && KeyedBy(data, field, id)
    requires other == field || other.Key() !in data
    requires Unique(store, other)
    ensures Unique(Upsert(store, field, id, data).store, other)
  {
    var r := Upsert(store, field, id, data);
    var key := other.Key();
    if r.action == Created {
      var added := r.store[|store|];
      assert r.store == store + [added];
      assert other == field ==> Carries(added, field, id);
      assert other != field ==> key !in added.fields;
      forall i | 0 <= i < |store| && Active(store[i]) ensures !SameId(store[i], added, other) {
        assert !Carries(store[i], field, id);
      }
      AppendKeepsUnique(store, added, other);
    } else {
      var n := r.index;
      assert r.store == store[n := r.store[n]];
      assert key in r.store[n].fields <==> key in store[n].fields;
      assert key in store[n].fields ==> r.store[n].fields[key] == store[n].fields[key];
      ReplaceKeepsUnique(store, n, r.store[n], other);
    }
  }

  /** Appending a task whose id no open task holds keeps the ids unique. */
  lemma AppendKeepsUnique(store: Store, added: Record, other: IdField)
    requires Unique(store, other)
    requires forall i :: 0 <= i < |store| && Active(store[i]) ==> !SameId(store[i], added, other)
    ensures Unique(store + [added], other)
  {
    var s1 := store + [added];
    forall i, j | 0 <= i < j < |s1| && Active(s1[i]) && Active(s1[j]) ensures !SameId(s1[i], s1[j], other) {
      assert s1[i] == store[i];
      if j < |store| {
        assert s1[j] == store[j];
      }
    }
  }

  /** Replacing a task by one with the same status and the same id keeps the ids unique. */
  lemma ReplaceKeepsUnique(store: Store, n: nat, rec: Record, other: IdField)
    requires n < |store| && Unique(store, other)
    requires rec.status == store[n].status
    requires other.Key() in rec.fields <==> other.Key() in store[n].fields
    requires other.Key() in rec.fields ==> rec.fields[other.Key()] == store[n].fields[other.Key()]
    ensures Unique(store[n := rec], other)
  {
    var s1 := store[n := rec];
    forall i, j | 0 <= i < j < |s1| && Active(s1[i]) && Active(s1[j]) ensures !SameId(s1[i], s1[j], other) {
      assert SameId(s1[i], s1[j], other) == SameId(store[i], store[j], other);
    }
  }

  /**
   * Annotations are popped before the diff: two dictionaries that differ only
   * in their annotations get the same answer once a task exists, so a changed
   * note never reports "updated" and never reaches the stored task.
   */
  lemma AnnotationsNeverDiffed(store: Store, field: IdField, id: string, d1: Fields, d2: Fields)
    requires AnnotationsWellFormed(d1) && AnnotationsWellFormed(d2)
    requires WithoutAnnotations(d1) == WithoutAnnotations(d2)
    requires FindByExternalId(store, field, id).Some?
    ensures Upsert(store, field, id, d1) == Upsert(store, field, id, d2)
    ensures Upsert(store, field, id, d1).store[Upsert(store, field, id, d1).index].annotations
         == store[Upsert(store, field, id, d1).index].annotations
  {
  }

  /**
   * Tags are compared as lists, not as sets: the same two tags in the other
   * order make a found task "updated".
   */
  lemma TagOrderCounts(store: Store, field: IdField, id: string, data: Fields, a: string, b: string)
    requires AnnotationsWellFormed(data) && a != b
    requires FindByExternalId(store, field, id).Some?
    requires TagsKey in store[FindByExternalId(store, field, id).value].fields
    requires store[FindByExternalId(store, field, id).value].fields[TagsKey] == Strs([a, b])
    requires TagsKey in data && data[TagsKey] == Strs([b, a])
    ensures Upsert(store, field, id, data).action == Updated
  {
    var i := FindByExternalId(store, field, id).value;
    assert [a, b][0] != [b, a][0];
    assert TagsKey in WithoutAnnotations(data);
    assert Current(store[i].fields, TagsKey) != WithoutAnnotations(data)[TagsKey];
  }

  // ---------------------------------------------------------------------------
  // build_task_data

  /** The keyword arguments of `build_task_data`; a missing tag or note list is the empty one. */
  datatype TaskInput = TaskInput(
    description: string,
    field: IdField,
    externalId: string,
    source: string,
    sourceTag: string,
    project: Option<string>,
    due: Option<Date>,
    tags: seq<string>,
    priority: Option<string>,
    annotations: seq<string>)

  /** The priorities Taskwarrior accepts. */
  predicate IsPriority(p: string) {
    p == "H" || p == "M" || p == "L"
  }

  /**
   * The task's tags: the given ones in order, then the source tag if it was
   * not already among them.
   */
  function BuildTags(tags: seq<string>, sourceTag: string): (r: seq<string>)
    ensures |tags| <= |r| <= |tags| + 1 && r[..|tags|] == tags
    ensures sourceTag in r
    ensures |r| == |tags| + 1 ==> sourceTag !in tags && r[|tags|] == sourceTag
    ensures Count(r, sourceTag) == if sourceTag in tags then Count(tags, sourceTag) else 1
  {
    if sourceTag in tags then tags
    else
      var r := tags + [sourceTag];
      assert multiset(r) == multiset(tags) + multiset{sourceTag};
      assert r[..|tags|] == tags;
      r
  }

  /** The attribute names `build_task_data` writes are pairwise different. */
  lemma DistinctKeys(field: IdField)
    ensures DescriptionKey != field.Key() && DescriptionKey != SourceKey && DescriptionKey != TagsKey && DescriptionKey != ProjectKey
    ensures DescriptionKey != DueKey && DescriptionKey != PriorityKey && DescriptionKey != AnnotationsKey && field.Key() != SourceKey
    ensures field.Key() != TagsKey && field.Key() != ProjectKey && field.Key() != DueKey && field.Key() != PriorityKey
    ensures field.Key() != AnnotationsKey && SourceKey != TagsKey && SourceKey != ProjectKey && SourceKey != DueKey
    ensures SourceKey != PriorityKey && SourceKey != AnnotationsKey && TagsKey != ProjectKey && TagsKey != DueKey
    ensures TagsKey != PriorityKey && TagsKey != AnnotationsKey && ProjectKey != DueKey && ProjectKey != PriorityKey
    ensures ProjectKey != AnnotationsKey && DueKey != PriorityKey && DueKey != AnnotationsKey && PriorityKey != AnnotationsKey
  {
    assert |DescriptionKey| == 11 && |SourceKey| == 6 && |TagsKey| == 4 && |ProjectKey| == 7;
    assert |DueKey| == 3 && |PriorityKey| == 8 && |AnnotationsKey| == 11;
    assert |field.Key()| == 12 || |field.Key()| == 9;
    assert DescriptionKey[0] != AnnotationsKey[0];
  }

  /**
   * `build_task_data`: description, id, source and tags are always there (the
   * optional attributes are the subject of the two lemmas below).
   */
  function BuildTaskData(t: TaskInput): (r: Fields)
    ensures DescriptionKey in r && r[DescriptionKey] == Str(t.description)
    ensures KeyedBy(r, t.field, t.externalId)
    ensures SourceKey in r && r[SourceKey] == Str(t.source)
    ensures TagsKey in r && r[TagsKey] == Strs(BuildTags(t.tags, t.sourceTag))
  {
    DistinctKeys(t.field);
    var base := map[
      DescriptionKey := Str(t.description),
      t.field.Key() := Str(t.externalId),
      SourceKey := Str(t.source),
      TagsKey := Strs(BuildTags(t.tags, t.sourceTag))];
    var withProject := if t.project.Some? && t.project.value != "" then base[ProjectKey := Str(t.project.value)] else base;
    var withDue := if t.due.Some? then withProject[DueKey := Day(t.due.value)] else withProject;
    var withPriority :=
      if t.priority.Some? && IsPriority(t.priority.value) then withDue[PriorityKey := Str(t.priority.value)] else withDue;
    if t.annotations != [] then withPriority[AnnotationsKey := Strs(t.annotations)] else withPriority
  }

  /**
   * The optional attributes that are present carry the argument they came
   * from, the annotations entry is the list given, and nothing else is added.
   */
  lemma BuildTaskDataOptionalValues(t: TaskInput)
    ensures var r := BuildTaskData(t);
            && (ProjectKey in r <==> t.project.Some? && t.project.value != "")
            && (DueKey in r <==> t.due.Some?)
            && (PriorityKey in r <==> t.priority.Some? && IsPriority(t.priority.value))
            && (AnnotationsKey in r <==> t.annotations != [])
            && (ProjectKey in r ==> r[ProjectKey] == Str(t.project.value))
            && (DueKey in r ==> r[DueKey] == Day(t.due.value))
            && (PriorityKey in r ==> r[PriorityKey] == Str(t.priority.value))
            && (AnnotationsKey in r ==> r[AnnotationsKey] == Strs(t.annotations))
  {
    DistinctKeys(t.field);
  }

  /**
   * A built dictionary holds only the eight attributes, never None, and can be
   * handed to `Upsert`.
   */
  lemma BuildTaskDataShape(t: TaskInput)
    ensures var r := BuildTaskData(t);
            && r.Keys <= {DescriptionKey, t.field.Key(), SourceKey, TagsKey, ProjectKey, DueKey, PriorityKey, AnnotationsKey}
            && AnnotationsWellFormed(r)
  {
    DistinctKeys(t.field);
  }

  /** `build_task_data` never stores None: an upsert of its output skips no attribute. */
  lemma BuildTaskDataHasNoNone(t: TaskInput)
    ensures var r := BuildTaskData(t); forall k :: k in r ==> r[k] != Null
  {
    var r := BuildTaskData(t);
    BuildTaskDataShape(t);
    BuildTaskDataOptionalValues(t);
    forall k | k in r ensures r[k] != Null {
      assert k in {DescriptionKey, t.field.Key(), SourceKey, TagsKey, ProjectKey, DueKey, PriorityKey, AnnotationsKey};
    }
  }

  /**
   * A built dictionary names no other source's id attribute, so upserting it
   * cannot disturb that source's tasks.
   */
  lemma BuiltDataMentionsOneId(t: TaskInput, other: IdField)
    requires other != t.field
    ensures other.Key() !in BuildTaskData(t)
  {
  }
}

=== FILE: text.dfy ===
/**
 * The string operations the classifier tail and the annotation cleaner use:
 * Python's `str.strip()`, `str.lower()`, `startswith`, `in` and the last
 * piece of `split(sep)`.
 */
module Text {
  import opened Wrappers

  /** Exactly the characters for which Python's `str.isspace()` holds. */
  predicate IsSpace(c: char) {
    var n := c as int;
    || (9 <= n <= 13) || (28 <= n <= 32) || n == 0x85 || n == 0xA0 || n == 0x1680
    || (0x2000 <= n <= 0x200A) || n == 0x2028 || n == 0x2029 || n == 0x202F
    || n == 0x205F || n == 0x3000
  }

  /** Positions `a` up to (not including) `b` of `s` are all whitespace. */
  predicate SpaceRun(s: string, a: int, b: int) {
    forall n :: a <= n < b && 0 <= n < |s| ==> IsSpace(s[n])
  }

  /** The first position at or after `from` that is not whitespace, or the end. */
  function SkipSpaces(s: string, from: nat): (k: nat)
    requires from <= |s|
    ensures from <= k <= |s| && SpaceRun(s, from, k)
    ensures k == |s| || !IsSpace(s[k])
    decreases |s| - from
  {
    if from < |s| && IsSpace(s[from]) then SkipSpaces(s, from + 1) else from
  }

  /** The position just after the last non-whitespace character before `stop`, or 0. */
  function BackSpaces(s: string, stop: nat): (k: nat)
    requires stop <= |s|
    ensures k <= stop && SpaceRun(s, k, stop)
    ensures k == 0 || !IsSpace(s[k - 1])
    decreases stop
  {
    if 0 < stop && IsSpace(s[stop - 1]) then BackSpaces(s, stop - 1) else stop
  }

  /** `s.lstrip()`: drops the leading whitespace and nothing else. */
  function TrimStart(s: string): (r: string)
    ensures |r| <= |s| && r == s[|s| - |r|..]
    ensures SpaceRun(s, 0, |s| - |r|)
    ensures r == [] || !IsSpace(r[0])
  {
    s[SkipSpaces(s, 0)..]
  }

  /** `s.rstrip()`: drops the trailing whitespace and nothing else. */
  function TrimEnd(s: string): (r: string)
    ensures |r| <= |s| && r == s[..|r|]
    ensures SpaceRun(s, |r|, |s|)
    ensures r == [] || !IsSpace(r[|r| - 1])
  {
    s[..BackSpaces(s, |s|)]
  }

  /** Neither end of `s` is whitespace. */
  predicate Trimmed(s: string) {
    s == [] || (!IsSpace(s[0]) && !IsSpace(s[|s| - 1]))
  }

  /** `s.strip()`: neither end of the result is whitespace. */
  function Strip(s: string): (r: string)
    ensures |r| <= |s|
    ensures Trimmed(r)
  {
    var t := TrimStart(s);
    var r := TrimEnd(t);
    assert r != [] ==> r[0] == t[0];
    r
  }

  /** `s.strip()` is empty exactly when `s` is nothing but whitespace. */
  lemma StripBlank(s: string)
    ensures Strip(s) == [] <==> SpaceRun(s, 0, |s|)
  {
    var t := TrimStart(s);
    if t != [] {
      assert t[0] == s[|s| - |t|];
      assert TrimEnd(t) != [] || SpaceRun(t, 0, |t|);
    }
  }

  /** `s.strip()` is the part of `s` between its leading and its trailing whitespace. */
  lemma StripSlice(s: string) returns (i: nat, j: nat)
    ensures i <= j <= |s| && Strip(s) == s[i..j]
    ensures SpaceRun(s, 0, i) && SpaceRun(s, j, |s|)
    ensures i < j ==> !IsSpace(s[i]) && !IsSpace(s[j - 1])
  {
    var t := TrimStart(s);
    i := |s| - |t|;
    var r := TrimEnd(t);
    j := i + |r|;
    assert r == s[i..j];
    forall n | j <= n < |s| ensures IsSpace(s[n]) {
      assert s[n] == t[n - i];
    }
    if i < j {
      SliceEnds(s, i, j);
      assert Trimmed(r);
    }
  }

  /** `lstrip()` stops exactly at the first non-whitespace character. */
  lemma TrimStartUnique(s: string, k: nat)
    requires k <= |s| && SpaceRun(s, 0, k) && (k == |s| || !IsSpace(s[k]))
    ensures TrimStart(s) == s[k..]
  {
    var r := TrimStart(s);
    var n := |s| - |r|;
  }

  /** `rstrip()` stops exactly after the last non-whitespace character. */
  lemma TrimEndUnique(s: string, k: nat)
    requires k <= |s| && SpaceRun(s, k, |s|) && (k == 0 || !IsSpace(s[k - 1]))
    ensures TrimEnd(s) == s[..k]
  {
    var r := TrimEnd(s);
    assert r == [] || r[|r| - 1] == s[|r| - 1];
  }

  /** `strip()` returns the one slice with whitespace-only surroundings and non-whitespace ends. */
  lemma StripUnique(s: string, i: nat, j: nat)
    requires i <= j <= |s| && SpaceRun(s, 0, i) && SpaceRun(s, j, |s|)
    requires i == j || (!IsSpace(s[i]) && !IsSpace(s[j - 1]))
    ensures Strip(s) == s[i..j]
  {
    if i == j {
      TrimStartUnique(s, |s|);
    } else {
      TrimStartUnique(s, i);
      TrimEndOfSuffix(s, i, j);
    }
  }

  /** Helper of `StripUnique`: `rstrip()` of the suffix from `i` ends at `j`. */
  lemma TrimEndOfSuffix(s: string, i: nat, j: nat)
    requires i < j <= |s| && SpaceRun(s, j, |s|) && !IsSpace(s[j - 1])
    ensures TrimEnd(s[i..]) == s[i..j]
  {
    var t := s[i..];
    assert forall n :: j - i <= n < |t| ==> t[n] == s[n + i];
    TrimEndUnique(t, j - i);
    assert t[..j - i] == s[i..j];
  }

  /** Whitespace runs survive taking a prefix. */
  lemma PrefixSpaceRun(s: string, k: nat, a: int, b: int)
    requires k <= |s| && SpaceRun(s, a, b)
    ensures SpaceRun(s[..k], a, b)
  {
  }

  /** Stripping after `rstrip()` changes nothing: `s.rstrip().strip() == s.strip()`. */
  lemma StripOfTrimEnd(s: string)
    ensures Strip(TrimEnd(s)) == Strip(s)
  {
    var i, j := StripSlice(s);
    var e := TrimEnd(s);
    PrefixSpaceRun(s, |e|, 0, i);
    PrefixSpaceRun(s, |e|, j, |s|);
    if i == j {
      assert SpaceRun(e, 0, |e|);
      StripUnique(e, 0, 0);
    } else {
      StripEndsInsideTrimEnd(s, i, j);
      StripUnique(e, i, j);
      PrefixSlice(s, |e|, i, j);
      assert e[i..j] == s[i..j];
    }
  }

  /** Helper of `StripOfTrimEnd`: the stripped core ends before the trailing whitespace. */
  lemma StripEndsInsideTrimEnd(s: string, i: nat, j: nat)
    requires i < j <= |s| && Strip(s) == s[i..j]
    ensures j <= |TrimEnd(s)|
    ensures !IsSpace(TrimEnd(s)[i]) && !IsSpace(TrimEnd(s)[j - 1])
  {
    var e := TrimEnd(s);
    SliceEnds(s, i, j);
    assert Trimmed(s[i..j]);
    assert SpaceRun(s, |e|, |s|);
    assert j <= |e|;
    assert e[i] == s[..|e|][i] == s[i];
    assert e[j - 1] == s[..|e|][j - 1] == s[j - 1];
  }

  /** The first and last characters of a non-empty slice. */
  lemma SliceEnds(s: string, i: nat, j: nat)
    requires i < j <= |s|
    ensures s[i..j][0] == s[i] && s[i..j][j - i - 1] == s[j - 1]
  {
  }

  /** A slice of a prefix is the same slice of the whole. */
  lemma PrefixSlice(s: string, k: nat, i: nat, j: nat)
    requires i <= j <= k <= |s|
    ensures s[..k][i..j] == s[i..j]
  {
  }

  /** `str.lower()` on one character, for the ASCII letters. */
  function LowerChar(c: char): char {
    if 'A' <= c <= 'Z' then (c as int - 'A' as int + 'a' as int) as char else c
  }

  /** `s.lower()`: ASCII letters are lower-cased, every other character is kept. */
  function Lower(s: string): (r: string)
    ensures |r| == |s|
    ensures forall i :: 0 <= i < |s| ==> r[i] == LowerChar(s[i])
  {
    seq(|s|, i requires 0 <= i < |s| => LowerChar(s[i]))
  }

  /** Lower-casing works character by character, so it distributes over concatenation. */
  lemma LowerAppend(x: string, y: string)
    ensures Lower(x + y) == Lower(x) + Lower(y)
  {
  }

  /** Lower-casing a character never changes whether it is whitespace. */
  lemma LowerCharKeepsSpace(c: char)
    ensures IsSpace(LowerChar(c)) == IsSpace(c)
  {
  }

  /** A whitespace run stays one after lower-casing, and a non-space stays a non-space. */
  lemma LowerKeepsSpaces(s: string)
    ensures forall n :: 0 <= n < |s| ==> IsSpace(Lower(s)[n]) == IsSpace(s[n])
  {
    forall n | 0 <= n < |s| ensures IsSpace(Lower(s)[n]) == IsSpace(s[n]) {
      LowerCharKeepsSpace(s[n]);
    }
  }

  /** Lower-casing commutes with slicing. */
  lemma LowerSlice(s: string, i: nat, j: nat)
    requires i <= j <= |s|
    ensures Lower(s)[i..j] == Lower(s[i..j])
  {
  }

  /** `s.lower().strip() == s.strip().lower()`: lower-casing leaves whitespace alone. */
  lemma StripLowerCommute(s: string)
    ensures Strip(Lower(s)) == Lower(Strip(s))
  {
    var i, j := StripSlice(s);
    var l := Lower(s);
    LowerKeepsSpaces(s);
    assert SpaceRun(l, 0, i) && SpaceRun(l, j, |l|);
    StripUnique(l, i, j);
    LowerSlice(s, i, j);
  }

  /** `lstrip()` of `x + y` only touches `x` when `y` starts with a non-space. */
  lemma TrimStartAppend(x: string, y: string)
    requires y != [] && !IsSpace(y[0])
    ensures TrimStart(x + y) == TrimStart(x) + y
  {
    var k := |x| - |TrimStart(x)|;
    var s := x + y;
    assert s[k..] == TrimStart(x) + y;
    TrimStartUnique(s, k);
  }

  /** `rstrip()` of `x + y` only touches `y` when `x` ends with a non-space. */
  lemma TrimEndAppend(x: string, y: string)
    requires x != [] && !IsSpace(x[|x| - 1])
    ensures TrimEnd(x + y) == x + TrimEnd(y)
  {
    var k := |x| + |TrimEnd(y)|;
    var s := x + y;
    assert forall n :: k <= n < |s| ==> s[n] == y[n - |x|];
    assert s[..k] == x + TrimEnd(y);
    TrimEndUnique(s, k);
  }

  /** Text with no whitespace at either end is left alone by `strip()`. */
  lemma StripNoop(s: string)
    requires Trimmed(s)
    ensures Strip(s) == s
  {
    StripUnique(s, 0, |s|);
  }

  /** `s.startswith(p)`. */
  predicate StartsWith(s: string, p: string) {
    |p| <= |s| && s[..|p|] == p
  }

  /** `sep` occurs in `s` starting at position `i`. */
  predicate OccursAt(s: string, sep: string, i: int) {
    0 <= i && i + |sep| <= |s| && s[i..i + |sep|] == sep
  }

  /** The start of the last occurrence of `sep` in `s`, if any. */
  function LastIndex(s: string, sep: string): (r: Option<nat>)
    requires sep != []
    ensures r.Some? ==> OccursAt(s, sep, r.value)
    ensures r.Some? ==> forall j :: r.value < j ==> !OccursAt(s, sep, j)
    ensures r.None? ==> forall j :: !OccursAt(s, sep, j)
    decreases |s|
  {
    if |s| < |sep| then None
    else if s[|s| - |sep|..] == sep then Some(|s| - |sep|)
    else
      var r := LastIndex(s[..|s| - 1], sep);
      OccurrencesBeforeEnd(s, sep);
      r
  }

  /** An occurrence that does not end at the last character lies in the text without it. */
  lemma OccurrencesBeforeEnd(s: string, sep: string)
    requires s != []
    ensures forall j :: OccursAt(s, sep, j) && j != |s| - |sep| ==> OccursAt(s[..|s| - 1], sep, j)
  {
    forall j | OccursAt(s, sep, j) && j != |s| - |sep|
      ensures OccursAt(s[..|s| - 1], sep, j)
    {
      assert s[..|s| - 1][j..j + |sep|] == s[j..j + |sep|];
    }
  }

  /** `sep in s`. */
  predicate Contains(s: string, sep: string)
    requires sep != []
  {
    LastIndex(s, sep).Some?
  }

  /** The text after the last occurrence of `sep` (`s.split(sep)[-1]`); all of `s` when there is none. */
  function AfterLast(s: string, sep: string): (r: string)
    requires sep != []
    ensures |r| <= |s| && r == s[|s| - |r|..]
    ensures Contains(s, sep) ==> OccursAt(s, sep, |s| - |r| - |sep|)
    ensures Contains(s, sep) ==> LastIndex(s, sep) == Some(|s| - |r| - |sep|)
    ensures !Contains(s, sep) ==> r == s
    ensures forall j :: !OccursAt(r, sep, j)
  {
    match LastIndex(s, sep)
    case None => s
    case Some(i) =>
      var r := s[i + |sep|..];
      assert forall j :: OccursAt(r, sep, j) ==> OccursAt(s, sep, i + |sep| + j) by {
        forall j | OccursAt(r, sep, j) ensures OccursAt(s, sep, i + |sep| + j) {
          assert s[i + |sep| + j..i + |sep| + j + |sep|] == r[j..j + |sep|];
        }
      }
      r
  }

  /** The first occurrence of `sep` in `s` at or after position `from`. */
  function NextOccurrence(s: string, sep: string, from: nat): (r: Option<nat>)
    requires sep != []
    ensures r.Some? ==> from <= r.value && OccursAt(s, sep, r.value)
    ensures r.Some? ==> forall j :: from <= j < r.value ==> !OccursAt(s, sep, j)
    ensures r.None? ==> forall j :: from <= j ==> !OccursAt(s, sep, j)
    decreases |s| - from
  {
    if |s| < from + |sep| then None
    else if OccursAt(s, sep, from) then Some(from)
    else NextOccurrence(s, sep, from + 1)
  }

  /**
   * Where `s[from:].split(sep)[-1]` begins: the scan cuts at the first
   * occurrence and resumes after it until no occurrence remains.
   */
  function SplitStart(s: string, sep: string, from: nat): (r: nat)
    requires sep != [] && from <= |s|
    ensures from <= r <= |s|
    ensures r == from || (from + |sep| <= r && OccursAt(s, sep, r - |sep|))
    ensures forall j :: r <= j ==> !OccursAt(s, sep, j)
    decreases |s| - from
  {
    match NextOccurrence(s, sep, from)
    case None => from
    case Some(k) => SplitStart(s, sep, k + |sep|)
  }

  /** `s[from:].split(sep)[-1]`: the piece left after the scan's last cut. */
  function SplitLast(s: string, sep: string, from: nat): (r: string)
    requires sep != [] && from <= |s|
    ensures |r| <= |s| - from && r == s[|s| - |r|..]
    ensures forall j :: 0 <= j && |s| - |r| <= j ==> !OccursAt(s, sep, j)
  {
    s[SplitStart(s, sep, from)..]
  }

  /** The suffix of `sep` after its first `d` characters is also a prefix of it. */
  predicate Border(sep: string, d: nat)
    requires d <= |sep|
  {
    sep[d..] == sep[..|sep| - d]
  }

  /** No proper suffix of `sep` is also a prefix of it, so two occurrences never overlap. */
  predicate NoSelfOverlap(sep: string) {
    forall d :: 0 < d < |sep| ==> !Border(sep, d)
  }

  /** Two occurrences closer than the separator's length share a border of the separator. */
  lemma OverlapBorder(s: string, sep: string, k: int, l: int)
    requires OccursAt(s, sep, k) && OccursAt(s, sep, l) && k < l < k + |sep|
    ensures Border(sep, l - k)
  {
    var d := l - k;
    forall m | 0 <= m < |sep| - d ensures sep[d..][m] == sep[..|sep| - d][m] {
      assert sep[d + m] == s[k..k + |sep|][d + m] == s[l..l + |sep|][m];
    }
  }

  /** Two occurrences of a separator that cannot overlap itself are at least its length apart. */
  lemma OccurrencesApart(s: string, sep: string, k: int, l: int)
    requires NoSelfOverlap(sep) && OccursAt(s, sep, k) && OccursAt(s, sep, l) && k < l
    ensures k + |sep| <= l
  {
    if l < k + |sep| {
      OverlapBorder(s, sep, k, l);
      assert false;
    }
  }

  /**
   * The greedy scan of `split` from the start ends right after the last
   * occurrence: its last cut is an occurrence no later than the last one, and
   * one that cannot overlap the last one is the last one.
   */
  lemma SplitStartReaches(s: string, sep: string, last: nat)
    requires sep != [] && NoSelfOverlap(sep)
    requires OccursAt(s, sep, last) && forall j :: last < j ==> !OccursAt(s, sep, j)
    ensures SplitStart(s, sep, 0) == last + |sep|
  {
    var r := SplitStart(s, sep, 0);
    assert last < r;
    var cut := r - |sep|;
    assert OccursAt(s, sep, cut);
    assert cut <= last;
    if cut < last {
      OccurrencesApart(s, sep, cut, last);
    }
  }

  /** For a separator that cannot overlap itself, `split(sep)[-1]` is the text after the last occurrence. */
  lemma SplitLastIsAfterLast(s: string, sep: string)
    requires sep != [] && NoSelfOverlap(sep)
    ensures SplitLast(s, sep, 0) == AfterLast(s, sep)
  {
    match LastIndex(s, sep)
    case None =>
      assert NextOccurrence(s, sep, 0).None?;
    case Some(last) =>
      SplitStartReaches(s, sep, last);
  }

  /** A separator that overlaps itself splits differently: `"aaa".split("aa")[-1]` is `"a"`. */
  lemma OverlapSplitsDifferently()
    ensures SplitLast("aaa", "aa", 0) == "a"
    ensures AfterLast("aaa", "aa") == ""
  {
    assert OccursAt("aaa", "aa", 0) && OccursAt("aaa", "aa", 1);
    assert NextOccurrence("aaa", "aa", 0) == Some(0);
    assert NextOccurrence("aaa", "aa", 2).None?;
    assert LastIndex("aaa", "aa") == Some(1);
  }

  /** An occurrence inside a slice is an occurrence in the whole text. */
  lemma OccurrenceInSlice(s: string, sep: string, i: nat, j: nat, n: int)
    requires i <= j <= |s|
    ensures OccursAt(s[i..j], sep, n) ==> OccursAt(s, sep, i + n)
  {
    if OccursAt(s[i..j], sep, n) {
      forall k | 0 <= k < |sep| ensures s[i + n + k] == sep[k] {
        assert sep[k] == s[i..j][n + k];
      }
      assert s[i + n..i + n + |sep|] == sep;
    }
  }

  /** A slice of a text without `sep` has no `sep` either. */
  lemma NoOccurrenceInSlice(s: string, sep: string, i: nat, j: nat)
    requires i <= j <= |s|
    requires forall n :: !OccursAt(s, sep, n)
    ensures forall n :: !OccursAt(s[i..j], sep, n)
  {
    forall n ensures !OccursAt(s[i..j], sep, n) {
      OccurrenceInSlice(s, sep, i, j, n);
    }
  }

  /** `s[:n]`. */
  function Truncate(s: string, n: nat): (r: string)
    ensures |r| <= n && |r| <= |s| && r == s[..|r|]
    ensures |s| <= n ==> r == s
    ensures n <= |s| ==> |r| == n
  {
    if |s| <= n then s else s[..n]
  }
}

=== FILE: things_reader.dfy ===
/**
 * The Things 3 reader: the optional area filter and the mapping of each
 * to-do onto a task dictionary. The to-dos, areas and projects the `things`
 * library returns are inputs, and so is the date parser.
 */
module ThingsReader {
  import opened Wrappers
  import opened Values
  import opened Seqs
  import opened Config
  import opened Taskwarrior

  /**
   * One incomplete to-do. `None` stands for a key that is missing or holds
   * None; the area and project are uuids.
   */
  datatype Todo = Todo(
    uuid: string,
    title: string,
    area: Option<string>,
    project: Option<string>,
    deadline: Option<string>,
    tags: Option<seq<string>>,
    notes: Option<string>)

  /** An area or a project: its uuid and its title. */
  datatype Titled = Titled(uuid: string, title: string)

  /** `datetime.strptime(text, "%Y-%m-%d")`, `None` where it raises. */
  type DateParser = string -> Option<Date>

  const ThingsSource := "things3"

  /** A key of a `.get()` that is present and truthy. */
  predicate Given(x: Option<string>) {
    x.Some? && x.value != ""
  }

  /** No item after position `i` has this uuid. */
  predicate LastWith(items: seq<Titled>, uuid: string, i: nat) {
    forall j :: i < j < |items| ==> items[j].uuid != uuid
  }

  /**
   * The title a uuid-to-title dictionary built from `items` gives for `uuid`:
   * the title of the last item with that uuid, as a later entry overwrites
   * an earlier one.
   */
  function TitleFor(items: seq<Titled>, uuid: string): (r: Option<string>)
    ensures r.Some? ==> exists i :: 0 <= i < |items| && items[i] == Titled(uuid, r.value) && LastWith(items, uuid, i)
    ensures r.None? <==> forall i :: 0 <= i < |items| ==> items[i].uuid != uuid
    decreases |items|
  {
    if items == [] then None
    else
      var last := items[|items| - 1];
      if last.uuid == uuid then Some(last.title)
      else
        var r := TitleFor(items[..|items| - 1], uuid);
        assert forall i :: 0 <= i < |items| - 1 ==> items[..|items| - 1][i] == items[i];
        assert forall i :: 0 <= i < |items| - 1 && LastWith(items[..|items| - 1], uuid, i) ==> LastWith(items, uuid, i);
        r
  }

  /** A to-do passes the area filter: it has an area whose title the filter lists. */
  function InAreas(areas: seq<Titled>, filter: seq<string>): Todo -> bool {
    (todo: Todo) => Given(todo.area) && TitleFor(areas, todo.area.value).Some? && TitleFor(areas, todo.area.value).value in filter
  }

  /** The to-dos that survive the area filter; an empty filter keeps them all. */
  function SelectByArea(todos: seq<Todo>, areas: seq<Titled>, filter: seq<string>): (r: seq<Todo>)
    ensures IsSubseq(r, todos)
    ensures filter == [] ==> r == todos
    ensures filter != [] ==> forall t :: t in r ==> Given(t.area) && TitleFor(areas, t.area.value).Some? && TitleFor(areas, t.area.value).value in filter
    ensures forall t :: t in todos && InAreas(areas, filter)(t) ==> t in r
    ensures filter != [] ==> forall t :: t in todos && InAreas(areas, filter)(t) ==> Count(r, t) == Count(todos, t)
  {
    if filter == [] then
      assert IsSubseq(todos, todos) by { SubseqRefl(todos); }
      todos
    else
      var r := Filter(todos, InAreas(areas, filter));
      assert forall t :: t in r ==> InAreas(areas, filter)(t);
      r
  }

  /**
   * The project a to-do is filed under. A to-do with a project gets that
   * project's title, or none when the uuid is unknown, never its area; a
   * to-do without a project gets its area's title.
   */
  function ProjectName(todo: Todo, areas: seq<Titled>, projects: seq<Titled>): (r: Option<string>)
    ensures Given(todo.project) ==> r == TitleFor(projects, todo.project.value)
    ensures Given(todo.project) && (forall i :: 0 <= i < |projects| ==> projects[i].uuid != todo.project.value) ==> r.None?
    ensures !Given(todo.project) && Given(todo.area) ==> r == TitleFor(areas, todo.area.value)
    ensures !Given(todo.project) && !Given(todo.area) ==> r.None?
  {
    if Given(todo.project) then TitleFor(projects, todo.project.value)
    else if Given(todo.area) then TitleFor(areas, todo.area.value)
    else None
  }

  /** The deadline parsed as a date, or none when it is missing or does not parse. */
  function DueDate(todo: Todo, parse: DateParser): Option<Date> {
    if Given(todo.deadline) then parse(todo.deadline.value) else None
  }

  /** The notes as the annotation list: one annotation when there are notes. */
  function NotesAnnotations(notes: Option<string>): (r: seq<string>)
    ensures |r| <= 1
    ensures r != [] <==> Given(notes)
    ensures r != [] ==> r[0] == notes.value
  {
    if Given(notes) then [notes.value] else []
  }

  /** The arguments `build_task_data` receives for one to-do. */
  function ThingsInput(todo: Todo, areas: seq<Titled>, projects: seq<Titled>, parse: DateParser, sourceTag: string): (r: TaskInput)
    ensures r.description == todo.title && r.field == Things3Uuid && r.externalId == todo.uuid
    ensures r.source == ThingsSource && r.sourceTag == sourceTag && r.priority.None?
  {
    TaskInput(
      todo.title, Things3Uuid, todo.uuid, ThingsSource, sourceTag,
      ProjectName(todo, areas, projects),
      DueDate(todo, parse),
      todo.tags.GetOr([]),
      None,
      NotesAnnotations(todo.notes))
  }

  /** The source tag and area filter the reader takes from the settings. */
  function ThingsTag(config: Settings): string
    requires WellTyped(config)
  {
    Setting(config, SyncSection, "things_tag", Str("things3")).s
  }

  function AreaFilter(config: Settings): seq<string>
    requires WellTyped(config)
  {
    Setting(config, ThingsSection, "areas", Strs([])).items
  }

  /**
   * `fetch_things_tasks`: one task dictionary per to-do that passes the area
   * filter, in order, keyed by the to-do's uuid and titled by it.
   */
  function FetchThingsTasks(config: Settings, todos: seq<Todo>, areas: seq<Titled>, projects: seq<Titled>, parse: DateParser): (r: seq<Fields>)
    requires WellTyped(config)
    ensures var selected := SelectByArea(todos, areas, AreaFilter(config));
            && |r| == |selected|
            && (forall i :: 0 <= i < |r| ==> r[i] == BuildTaskData(ThingsInput(selected[i], areas, projects, parse, ThingsTag(config))))
            && forall i :: 0 <= i < |r| ==>
                 && KeyedBy(r[i], Things3Uuid, selected[i].uuid)
                 && DescriptionKey in r[i] && r[i][DescriptionKey] == Str(selected[i].title)
                 && SourceKey in r[i] && r[i][SourceKey] == Str(ThingsSource)
  {
    var selected := SelectByArea(todos, areas, AreaFilter(config));
    seq(|selected|, i requires 0 <= i < |selected| => BuildTaskData(ThingsInput(selected[i], areas, projects, parse, ThingsTag(config))))
  }

  /**
   * Every record the reader returns is keyed by its to-do's uuid, comes from
   * "things3", carries the configured source tag, and can be upserted.
   */
  lemma ThingsRecordShape(config: Settings, todos: seq<Todo>, areas: seq<Titled>, projects: seq<Titled>, parse: DateParser, i: int)
    requires WellTyped(config)
    requires 0 <= i < |FetchThingsTasks(config, todos, areas, projects, parse)|
    ensures var selected := SelectByArea(todos, areas, AreaFilter(config));
            var r := FetchThingsTasks(config, todos, areas, projects, parse)[i];
            && KeyedBy(r, Things3Uuid, selected[i].uuid)
            && r[SourceKey] == Str(ThingsSource)
            && ThingsTag(config) in r[TagsKey].items
            && AnnotationsWellFormed(r)
  {
    var selected := SelectByArea(todos, areas, AreaFilter(config));
    BuildTaskDataShape(ThingsInput(selected[i], areas, projects, parse, ThingsTag(config)));
  }

  /**
   * The mapped fields of one to-do: tags as given or none, one annotation
   * exactly when it has notes, and a due date only when the deadline parses.
   */
  lemma ThingsFields(todo: Todo, areas: seq<Titled>, projects: seq<Titled>, parse: DateParser, sourceTag: string)
    ensures var r := BuildTaskData(ThingsInput(todo, areas, projects, parse, sourceTag));
            && r[TagsKey] == Strs(BuildTags(todo.tags.GetOr([]), sourceTag))
            && (Given(todo.notes) ==> AnnotationsKey in r && r[AnnotationsKey] == Strs([todo.notes.value]))
            && (!Given(todo.notes) ==> AnnotationsKey !in r)
            && (DueDate(todo, parse).Some? ==> DueKey in r && r[DueKey] == Day(DueDate(todo, parse).value))
            && (DueDate(todo, parse).None? ==> DueKey !in r)
            && (!Given(todo.deadline) ==> DueKey !in r)
            && PriorityKey !in r
  {
    BuildTaskDataOptionalValues(ThingsInput(todo, areas, projects, parse, sourceTag));
  }
}

=== FILE: values.dfy ===
/**
 * The dynamically typed values that flow through task dictionaries and the
 * configuration file, and Python's notion of truthiness over them.
 */
module Values {

  /** A calendar date as produced by `datetime.strptime(…, "%Y-%m-%d")`. */
  datatype Date = Date(year: int, month: int, day: int)

  /**
   * One value of a task dictionary or of a TOML table. `Null` is Python's
   * `None`; `Strs` is a list of strings (tags, annotations, areas).
   */
  datatype Value =
    | Null
    | Str(s: string)
    | Flag(b: bool)
    | Num(n: int)
    | Strs(items: seq<string>)
    | Day(date: Date)

  /** Python truthiness: `None`, `""`, `False`, `0` and `[]` are false; a date is always true. */
  predicate Truthy(v: Value) {
    match v
    case Null => false
    case Str(s) => s != ""
    case Flag(b) => b
    case Num(n) => n != 0
    case Strs(xs) => xs != []
    case Day(_) => true
  }

  /** `d.get(key, default)` on a dictionary. */
  function Lookup(d: map<string, Value>, key: string, default: Value): Value {
    if key in d then d[key] else default
  }
}

=== FILE: wrappers.dfy ===
/** Failure-carrying datatypes shared by every module of the model. */
module Wrappers {

  /** A value that may be absent, as Python's `None`. */
  datatype Option<+T> = None | Some(value: T) {

    /** The carried value, or `default` when absent. */
    function GetOr(default: T): T {
      match this
      case Some(v) => v
      case None => default
    }
  }

  /** Either a value or the exception the source would raise instead. */
  datatype Result<+T, +E> = Ok(value: T) | Err(error: E)
}
